=== FILE: README.md ===
# EDF+ annotation reading and sleep-stage selection, in Dafny

This project models two scripts of a small sleep-EEG toolkit.

**explore_edf.py** holds the reader and two helpers:

- `_read_annotations_edf` finds every Time-stamped Annotations List (TAL) of an EDF+ file. It uses the regular expression `([+-]\d+\.?\d*)(\x15(\d+\.?\d*))?(\x14.*?)\x14\x00` with `re.findall`. Each match becomes one `(onset, duration, description)` record per non-empty annotation text, and the records come back as three parallel columns.
- `find_flat_signals` flags the channels with fewer than three distinct sample values.
- `lights_time` collects the onsets of the `Lights Off` and `Lights On` annotations.

**eeg_epochs.py** chooses the sleep stages to cut into 30-second epochs:

- `get_one_stage` gives the one-entry event dictionary of a stage code.
- `get_available_stages` gives the event dictionary of the stages present among the annotations.
- `get_stage_epochs` picks one of the two and hands it to mne. It gives `None` when the dictionary is empty.

Modules, one per concern:

- `Decimal`: the numerals the pattern accepts, their printing and parsing, and their exact values.
- `Strings`: `str.split`, `str.join` and the non-empty filter.
- `TalFormat`: the TAL format of section 2.2.2 of the EDF+ specification as structured values. `Encode` gives the bytes of a TAL and `Expand` its records.
- `TalScanner`: the regular expression and `re.findall`, as a deterministic scanner.
- `ExploreEdf`: the reader, and the round trip "reading encoded TALs gives back their records".
- `ExploreHelpers`: `find_flat_signals` and `lights_time`.
- `EegEpochs`: the stage selection.
- `ReaderExamples`: concrete inputs with their exact outputs.

The scanner has no backtracking, and it is exact. Of all the ways the greedy numerals could give characters back, only the longest can be followed by 0x14 or 0x15. The lazy `.*?` stops at the first 0x14 0x00 and cannot cross a newline. `MatchPrefixSound` and `MatchPrefixComplete` show that the scanner finds exactly the lazy matches of the pattern. `FindAllLeftmost` shows that the search takes the leftmost match and resumes after it.

A space between 0x15 and the duration makes the pattern miss that TAL (`ReaderExamples.ExampleSpaceAfterDurationMark`).

## Model

| member | source | states |
|---|---|---|
| Decimal.ParseNumeralText | explore_edf.py:121 | Every well-formed duration numeral prints as text of the form `\d+\.?\d*` and parses back to itself, so `float(ev[2])` reads the value the text states |
| Decimal.ParseSignedText | explore_edf.py:120 | Every signed onset prints as text of the form `[+-]\d+\.?\d*` and parses back to the same sign and numeral |
| Decimal.SignedFloat | explore_edf.py:120 | `float()` of an onset text is the value of the one signed numeral that prints as that text |
| Decimal.NumeralFloat | explore_edf.py:121 | `float()` of a duration text is the value of the one numeral that prints as that text, and is never negative |
| Strings.Split | explore_edf.py:122 | `split('\x14')` gives at least one piece; no piece holds the separator; each piece's characters come from the input; joining the pieces gives the input back |
| Strings.SplitJoin | explore_edf.py:122 | Splitting a join of separator-free pieces gives exactly those pieces back, empty pieces included |
| Strings.NonEmpty | explore_edf.py:123 | The `if description:` filter keeps every non-empty piece and only non-empty pieces: each non-empty piece occurs as often as in the input, duplicates included, and the empty piece not at all |
| Strings.NonEmptyAppend | explore_edf.py:122-124 | Filtering a concatenation is filtering each part, in order |
| TalScanner.NumeralLength | explore_edf.py:113 | The greedy `\d+\.?\d*` at the start of a text: no numeral exactly when the text does not start with a digit; otherwise the prefix it takes is a numeral |
| TalScanner.NumeralLengthUnique | explore_edf.py:113 | A numeral followed by a character that is neither a digit nor '.' is the one the greedy `\d+\.?\d*` takes; backtracking cannot find another |
| TalScanner.FindTerminator | explore_edf.py:113 | `.*?\x14\x00` stops at the first 0x14 0x00 and spans no terminator and no newline; it fails only when a newline precedes every terminator |
| TalScanner.FindTerminatorOf | explore_edf.py:113 | A newline-free body with no terminator inside, followed by 0x14 0x00, is exactly what the lazy search spans, whatever follows |
| TalScanner.OnsetEnd | explore_edf.py:113 | Group 1, `[+-]\d+\.?\d*`: absent exactly when the text does not start with a sign followed by a digit; otherwise it ends after a signed numeral prefix |
| TalScanner.TextsFrom | explore_edf.py:113 | Group 4 and the terminator, `(\x14.*?)\x14\x00`, after the onset and duration groups: the group starts with 0x14 and its body is lazy (no newline, no 0x14 0x00), the groups are the corresponding slices of the text, and the text's prefix spells the whole match |
| TalScanner.DurationEnd | explore_edf.py:113 | The optional `(\x15(\d+\.?\d*))?` group is taken only as 0x15 and a numeral, and is empty when no 0x15 follows the onset; nothing matches exactly when 0x15 follows the onset without a digit after it |
| TalScanner.MatchPrefix | explore_edf.py:113 | No match starts at a character other than '+' or '-'; a match found is spelled out by the text's first characters and is no longer than the text |
| TalScanner.MatchPrefixSound | explore_edf.py:113 | Whatever the scanner finds at the start of a text is a match of the pattern with the shortest text group, spelled out by the text's first characters |
| TalScanner.MatchPrefixComplete | explore_edf.py:113 | Every lazy match of the pattern at the start of a text is the one the scanner finds, whatever follows it |
| TalScanner.FindAll | explore_edf.py:116 | Every group tuple `re.findall` returns is a lazy match of the pattern |
| TalScanner.FindAllLeftmost | explore_edf.py:116 | The first tuple found is the match at the leftmost matching position; the search resumes right after it |
| TalScanner.FindAllEmpty | explore_edf.py:116 | `findall` returns nothing exactly when the pattern matches at no position |
| TalScanner.FindAllSkip | explore_edf.py:116 | Filler holding no '+' or '-' (for instance 0x00 padding) contributes nothing and hides nothing after it |
| TalScanner.FindAllAfterMatch | explore_edf.py:116 | A match at the start of a text gives its groups first; the remaining tuples are those of the text after it |
| TalScanner.FindAllWithoutTerminator | explore_edf.py:113-116 | Text without any 0x14 0x00 has no match |
| TalScanner.FindAllDurationMarkWithoutDigit | explore_edf.py:113-116 | An onset followed by 0x15 and no digit (for example a space) starts no match: the search resumes right after the 0x15, where a sign inside that TAL's texts can start a match of its own |
| TalScanner.FindAllNewlineInTexts | explore_edf.py:113-116 | A newline before a TAL's terminator hides that TAL, whether or not it states a duration: no match starts between its onset and the newline, and the search resumes right after the newline |
| ExploreEdf.Transpose | explore_edf.py:126 | `zip(*events)`, with three empty lists when there are no events: aligned columns whose rows are exactly the events |
| ExploreEdf.Fragments | explore_edf.py:122 | `split('\x14')[1:]` on a text group: at least one fragment, none holding 0x14, and 0x14 followed by the fragments joined with 0x14 gives the group back |
| ExploreEdf.OnsetOf | explore_edf.py:120 | `float(ev[0])` is the value of the signed numeral the onset group spells |
| ExploreEdf.DurationOf | explore_edf.py:121 | `float(ev[2]) if ev[2] else 0`: 0 when the duration group is absent, otherwise the value of the numeral it spells; never negative |
| ExploreEdf.Records | explore_edf.py:119-124 | One match gives one record per non-empty fragment after the leading 0x14, in order; all share the match's onset and duration; the duration is 0 when the duration group is absent; every description is non-empty and holds no 0x14 and no newline |
| ExploreEdf.Events | explore_edf.py:118-124 | Every record drawn from the matches has a non-empty description holding no 0x14 and no newline |
| ExploreEdf.ReadAnnotationsEdf | explore_edf.py:94-126 | Three aligned columns; every description is non-empty and free of 0x14 and newline; no match gives three empty columns |
| ExploreEdf.ReadAnnotationsEdfOrder | explore_edf.py:116-126 | The records of a TAL at the start come before those of the rest of the text |
| ExploreEdf.ReadAnnotationsEdfWithoutTerminator | explore_edf.py:113-126 | Text without 0x14 0x00 reads as three empty columns, without error |
| ExploreEdf.ReadAnnotationsEdfWithoutSign | explore_edf.py:113-126 | Text without '+' or '-' reads as three empty columns |
| ExploreEdf.EncodeIsMatch | explore_edf.py:113 | The bytes of every well-formed TAL are a lazy match of the pattern with the expected groups |
| ExploreEdf.RecordsOfEncoded | explore_edf.py:119-124 | The records read from an encoded TAL are exactly what it means: its non-empty texts, each with its onset and duration (0 when omitted) |
| ExploreEdf.EventsOfLayout | explore_edf.py:113-126 | A stream of well-formed TALs with sign-free filler before, between and after them reads as exactly their records, in stream order |
| ExploreEdf.ReadAnnotationsEdfRoundTrip | explore_edf.py:94-126 | The same round trip, stated on the reader's columns |
| ExploreEdf.ReadOneTal | explore_edf.py:119-124 | A TAL with N non-empty texts gives N records in text order, all with its onset and its duration, and 0 as duration when it states none |
| ExploreEdf.ReadTwoTals | explore_edf.py:116-124 | Two TALs with sign-free filler between them give the first's records, then the second's |
| ExploreHelpers.FlatIffNoThreeDistinct | explore_edf.py:78 | `len(set(channel)) < 3` holds exactly when no three samples are pairwise different |
| ExploreHelpers.ShortChannelFlat | explore_edf.py:78 | A channel of fewer than three samples is always flagged |
| ExploreHelpers.FindFlatSignals | explore_edf.py:72-80 | The result holds an index exactly when it is a channel index and the channel has no three pairwise-different samples; indices strictly increase |
| ExploreHelpers.Positions | explore_edf.py:86-90 | The positions of the annotations with a given description: strictly increasing, each within range and with that description, and none missed |
| ExploreHelpers.LightsTime | explore_edf.py:83-91 | The onsets of the 'Lights Off' annotations and of the 'Lights On' annotations, each exactly those, in input order |
| ExploreHelpers.PositionsCount | explore_edf.py:86-90 | The positions of two different descriptions together are no more than the annotations |
| ExploreHelpers.LightsTimeDisjoint | explore_edf.py:86-91 | No annotation is taken into both lists, and together they are no longer than the input |
| EegEpochs.GetOneStage | eeg_epochs.py:29-45 | Codes 1 to 4 give exactly the one-entry dictionary of that stage (N1, N2, N3, R); every other argument gives the empty dictionary; never more than one entry |
| EegEpochs.GetAvailableStages | eeg_epochs.py:48-65 | A stage of the table is a key exactly when its name occurs among the annotations, and every key carries its table code |
| EegEpochs.AvailableByTable | eeg_epochs.py:48-65 | Reference reading of the stage table: each stage whose name occurs among the annotations is a key with its table code, and every key is such a stage |
| EegEpochs.AvailableStagesByTable | eeg_epochs.py:56-65 | The four `if ... in all_annotations` checks build exactly the table's selection |
| EegEpochs.AvailableStagesCodes | eeg_epochs.py:56-65 | Keys are among the four stage names; values lie in 1..4 and are distinct |
| EegEpochs.AvailableStagesMonotone | eeg_epochs.py:48-65 | More annotations never drop a stage or change its code |
| EegEpochs.AvailableStagesAgreeWithOneStage | eeg_epochs.py:29-65 | A name is available exactly when it occurs and some code 1..4 selects it alone; both dictionaries give it the same code |
| EegEpochs.GetStageEpochs | eeg_epochs.py:10-26 | None exactly when the selected dictionary is empty ('all' with no stage present, a code outside 1..4, or any other argument); otherwise events in 30-second chunks and epochs from 0 to `30 - 1/sfreq` seconds, with the exact one-entry dictionary for a code, and for 'all' exactly the dictionary `get_available_stages` gives |
| ReaderExamples.ExampleTwoTals | explore_edf.py:113-126 | `+180.0\x14Lights Off\x14\x00+210.0\x1530.0\x14Sleep stage N1\x14\x00` reads as onsets [180, 210], durations [0, 30] and the two descriptions |
| ReaderExamples.ExampleSharedOnset | explore_edf.py:122-124 | Two texts in one TAL give two records with the same onset and duration |
| ReaderExamples.ExampleEmptyTexts | explore_edf.py:122-123 | The time-keeping TAL `+0\x14\x14\x00` and an empty first text give no record |
| ReaderExamples.ExampleNoTerminator | explore_edf.py:113-126 | A TAL without 0x14 0x00 reads as three empty columns |
| ReaderExamples.ExampleSpaceAfterDurationMark | explore_edf.py:113 | A space between 0x15 and the duration hides that TAL: only the record before it is read |
| ReaderExamples.ExampleNewlineInText | explore_edf.py:113 | A newline inside an annotation text hides its TAL |
| ReaderExamples.ExampleNewlineInTextWithDuration | explore_edf.py:113 | The same for a TAL that states a duration: `+5\x1530\x14a\nb\x14\x00` reads as three empty columns |

## Left out

- File I/O: `open(edf_filepath, encoding='latin-1')` and `read()` are replaced by the text `read()` returns. That is one character per byte, except that text mode turns CR LF and a lone CR into '\n'; that translation is not modelled. `TalFormat.Readable` therefore excludes CR from the texts of a well-formed TAL, so the round-trip lemmas speak only of TALs whose bytes reach the reader unchanged.
- Decimal.SignedFloat, Decimal.NumeralFloat: Python's `float()` rounds to the nearest binary double, and a numeral above about 1.8e308 becomes `inf` (or `-inf` for a negative onset). The model uses the exact decimal value, so onsets and durations are exact reals and never overflow.
- ExploreEdf.ReadAnnotationsEdf: the result `zip(*events)` is a lazy iterator of tuples. The model gives three sequences, as the no-event branch does.
- ExploreEdf.DurationOf: the missing-duration default is the integer `0` in the source. It is modelled as the real 0.0, which compares equal.
- `\d` in a Python `str` pattern matches any Unicode decimal digit. Characters decoded from Latin-1 include no digits besides '0'..'9', so only those are modelled.
- ExploreHelpers.FindFlatSignals: samples are exact reals. NaN, for which `set()` keeps several copies, is not modelled.
- ExploreHelpers.LightsTime: an annotation is modelled as its `(onset, duration, description)` record, not as an mne annotation dictionary.
- EegEpochs.GetOneStage: the error message printed for an unknown stage is left out (output only).
- EegEpochs.GetOneStage: Python also treats `True` and `1.0` as equal to `1`. The argument is modelled as `All`, an integer code, or any other value.
- EegEpochs.GetStageEpochs: `mne.events_from_annotations` and `mne.Epochs` are not modelled. The result is the request made of them (`EpochRequest`): event dictionary, chunk duration, `tmin` and `tmax`.
- EegEpochs.GetStageEpochs: `tmax = 30. - 1. / sfreq` is computed in doubles; the model uses the exact real, so `tmax - tmin + 1 / sfreq` is exactly 30 in the model but only up to rounding in the source.
- EegEpochs.GetStageEpochs: `info['sfreq']` is taken to be positive (the `Hertz` type), as mne guarantees. The annotations are given as the list of descriptions that `read_annotations` returns; read_edf.py is not part of this model.
- `get_raw_epochs`, the plotting functions, the `main` functions and eeg_features.py are not part of this model. They only print, plot or call into mne and numpy.

=== FILE: decimal.dfy ===
/**
  Decimal numerals as they appear in a Time-stamped Annotations List: an
  unsigned numeral `\d+\.?\d*` (a run of digits, optionally a point and a
  second, possibly empty, run of digits), and the signed form used for onsets.

  The text side (IsNumeralText, ParseNumeral) is what the scanner works with;
  the structured side (Numeral, Signed) is what the TAL grammar encodes.
  Python's float() on a matched numeral is modelled by the exact decimal value
  as a `real`.
*/
module Decimal {

  import opened Wrappers

  /** Python's `\d` on Latin-1 decoded text: only '0'..'9' are decimal digits
      among the characters U+0000..U+00FF. */
  predicate IsDigit(c: char) {
    '0' <= c <= '9'
  }

  predicate AllDigits(s: string) {
    forall i :: 0 <= i < |s| ==> IsDigit(s[i])
  }

  function DigitValue(c: char): (d: nat)
    requires IsDigit(c)
    ensures d < 10
  {
    c as int - '0' as int
  }

  /** The natural number a digit string denotes (most significant first); 0 for "". */
  function DigitsValue(s: string): nat
    requires AllDigits(s)
  {
    if s == [] then 0 else DigitsValue(s[..|s| - 1]) * 10 + DigitValue(s[|s| - 1])
  }

  function Pow10(n: nat): (r: nat)
    ensures r >= 1
  {
    if n == 0 then 1 else 10 * Pow10(n - 1)
  }

  /** Length of the longest prefix of `s` made of digits. */
  function LeadingDigits(s: string): (k: nat)
    ensures k <= |s|
    ensures AllDigits(s[..k])
    ensures k == |s| || !IsDigit(s[k])
  {
    if s == [] || !IsDigit(s[0]) then 0
    else
      var k := 1 + LeadingDigits(s[1..]);
      assert s[..k] == [s[0]] + s[1..][..k - 1];
      k
  }

  /** A digit run that ends where the digits end is the leading run. */
  lemma LeadingDigitsUnique(s: string, j: nat)
    requires j <= |s| && AllDigits(s[..j])
    requires j == |s| || !IsDigit(s[j])
    ensures LeadingDigits(s) == j
  {
    var k := LeadingDigits(s);
    assert forall i :: 0 <= i < j ==> s[..j][i] == s[i];
    assert forall i :: 0 <= i < k ==> s[..k][i] == s[i];
  }

  /** `s` is, as a whole, a numeral of the form `\d+\.?\d*`. */
  predicate IsNumeralText(s: string) {
    var k := LeadingDigits(s);
    k > 0 && (k == |s| || (s[k] == '.' && AllDigits(s[k + 1..])))
  }

  /** `s` is a sign followed by a numeral: the form `[+-]\d+\.?\d*`. */
  predicate IsSignedText(s: string) {
    |s| > 0 && (s[0] == '+' || s[0] == '-') && IsNumeralText(s[1..])
  }

  /** An unsigned numeral: the whole digits and, when a point is written,
      the digits after it (possibly none, as in "12."). */
  datatype Numeral = Numeral(whole: string, fraction: Option<string>)

  /** A numeral with an explicit sign, as every TAL onset carries. */
  datatype Signed = Signed(negative: bool, magnitude: Numeral)

  predicate ValidNumeral(n: Numeral) {
    && |n.whole| > 0
    && AllDigits(n.whole)
    && (n.fraction.Some? ==> AllDigits(n.fraction.value))
  }

  function NumeralText(n: Numeral): string {
    match n.fraction
    case None => n.whole
    case Some(f) => n.whole + "." + f
  }

  function SignedText(s: Signed): string {
    (if s.negative then "-" else "+") + NumeralText(s.magnitude)
  }

  /** The exact value of a numeral: whole part plus fraction digits over 10^|fraction|. */
  function NumeralValue(n: Numeral): real
    requires ValidNumeral(n)
  {
    DigitsValue(n.whole) as real
      + match n.fraction
        case None => 0.0
        case Some(f) => DigitsValue(f) as real / Pow10(|f|) as real
  }

  function SignedValue(s: Signed): real
    requires ValidNumeral(s.magnitude)
  {
    if s.negative then -NumeralValue(s.magnitude) else NumeralValue(s.magnitude)
  }

  /** Reads a numeral text back into its parts; the inverse of NumeralText. */
  function ParseNumeral(s: string): (n: Numeral)
    requires IsNumeralText(s)
    ensures ValidNumeral(n)
    ensures NumeralText(n) == s
  {
    var k := LeadingDigits(s);
    if k == |s| then
      assert s[..k] == s;
      Numeral(s, None)
    else
      assert s == s[..k] + "." + s[k + 1..];
      Numeral(s[..k], Some(s[k + 1..]))
  }

  function ParseSigned(s: string): (r: Signed)
    requires IsSignedText(s)
    ensures ValidNumeral(r.magnitude)
    ensures SignedText(r) == s
  {
    assert s == [s[0]] + s[1..];
    Signed(s[0] == '-', ParseNumeral(s[1..]))
  }

  /** Every well-formed numeral prints as numeral text and parses back to itself. */
  lemma ParseNumeralText(n: Numeral)
    requires ValidNumeral(n)
    ensures IsNumeralText(NumeralText(n))
    ensures ParseNumeral(NumeralText(n)) == n
  {
    var s := NumeralText(n);
    match n.fraction
    case None =>
      assert s[..|s|] == s;
      LeadingDigitsUnique(s, |s|);
    case Some(f) =>
      var w := |n.whole|;
      assert s[..w] == n.whole;
      assert s[w] == '.';
      LeadingDigitsUnique(s, w);
      assert s[w + 1..] == f;
  }

  lemma ParseSignedText(s: Signed)
    requires ValidNumeral(s.magnitude)
    ensures IsSignedText(SignedText(s))
    ensures ParseSigned(SignedText(s)) == s
  {
    var t := SignedText(s);
    assert t[1..] == NumeralText(s.magnitude);
    ParseNumeralText(s.magnitude);
  }

  /** Python float() of a matched onset group `[+-]\d+\.?\d*`, as an exact
      value: the value of the signed numeral that the text spells. */
  function SignedFloat(s: string): (r: real)
    requires IsSignedText(s)
    ensures forall n: Signed :: ValidNumeral(n.magnitude) && SignedText(n) == s ==> r == SignedValue(n)
  {
    ParseSignedUnique(s);
    SignedValue(ParseSigned(s))
  }

  /** Python float() of a matched duration group `\d+\.?\d*`, as an exact
      value: the value of the numeral that the text spells, never negative. */
  function NumeralFloat(s: string): (r: real)
    requires IsNumeralText(s)
    ensures forall n :: ValidNumeral(n) && NumeralText(n) == s ==> r == NumeralValue(n)
    ensures r >= 0.0
  {
    ParseNumeralUnique(s);
    NumeralValue(ParseNumeral(s))
  }

  /** Only one signed numeral spells a given text. */
  lemma ParseSignedUnique(s: string)
    requires IsSignedText(s)
    ensures forall n: Signed :: ValidNumeral(n.magnitude) && SignedText(n) == s ==> ParseSigned(s) == n
  {
    forall n: Signed | ValidNumeral(n.magnitude) && SignedText(n) == s
      ensures ParseSigned(s) == n
    {
      ParseSignedText(n);
    }
  }

  /** Only one numeral spells a given text. */
  lemma ParseNumeralUnique(s: string)
    requires IsNumeralText(s)
    ensures forall n :: ValidNumeral(n) && NumeralText(n) == s ==> ParseNumeral(s) == n
  {
    forall n | ValidNumeral(n) && NumeralText(n) == s
      ensures ParseNumeral(s) == n
    {
      ParseNumeralText(n);
    }
  }
}

=== FILE: eeg_epochs.dfy ===
/**
  Sleep-stage selection of eeg_epochs.py: which annotation descriptions are
  turned into epochs, under which integer event codes.

  `get_one_stage` maps a stage code to a one-entry event dictionary,
  `get_available_stages` collects the stages that occur among the annotation
  descriptions, and `get_stage_epochs` picks one of the two and hands the
  dictionary to mne, or gives None when it is empty.  The mne calls are not
  modelled; what they are asked to do is (EpochRequest).
*/
module EegEpochs {

  import opened Wrappers

  const StageN1: string := "Sleep stage N1"
  const StageN2: string := "Sleep stage N2"
  const StageN3: string := "Sleep stage N3"
  const StageR: string := "Sleep stage R"

  /** The sleep stages the program knows, with their event codes. */
  const StageTable: seq<(string, int)> := [(StageN1, 1), (StageN2, 2), (StageN3, 3), (StageR, 4)]

  /** Epochs are 30 seconds long. */
  const EpochLength: real := 30.0

  /** The `sleep_stage` argument: the string 'all', a number, or anything else. */
  datatype StageArg = All | Code(n: int) | Other

  /** A sampling frequency; mne's `info['sfreq']` is always positive. */
  type Hertz = f: real | f > 0.0 witness 1.0

  /** What `get_stage_epochs` asks of mne: events cut from the annotations
      named in `eventId` in chunks of `chunkDuration` seconds, and epochs
      from `tmin` to `tmax` seconds around each event, without baseline. */
  datatype EpochRequest = EpochRequest(eventId: map<string, int>, chunkDuration: real, tmin: real, tmax: real)

  lemma StageNamesDistinct()
    ensures forall a, b :: 0 <= a < b < |StageTable| ==> StageTable[a].0 != StageTable[b].0
  {
    assert StageN1[13] != StageN2[13] && StageN1[13] != StageN3[13] && StageN2[13] != StageN3[13];
    assert |StageR| != |StageN1|;
  }

  /** `get_one_stage(sleep_stage)`: the one-entry dictionary of the stage with
      that code, or the empty dictionary (after printing an error) otherwise. */
  function GetOneStage(stage: StageArg): (r: map<string, int>)
    ensures |r| <= 1
    ensures stage.Code? && 1 <= stage.n <= 4 ==> r == map[StageTable[stage.n - 1].0 := stage.n]
    ensures !(stage.Code? && 1 <= stage.n <= 4) ==> r == map[]
  {
    if stage == Code(1) then map[StageN1 := 1]
    else if stage == Code(2) then map[StageN2 := 2]
    else if stage == Code(3) then map[StageN3 := 3]
    else if stage == Code(4) then map[StageR := 4]
    else map[]
  }

  /** `d[name] = code` when `name in annotations`, and `d` unchanged otherwise. */
  function AddIfPresent(d: map<string, int>, annotations: seq<string>, name: string, code: int): map<string, int> {
    if name in annotations then d[name := code] else d
  }

  /** `get_available_stages(all_annotations)`: every stage of the table whose
      name occurs among the annotation descriptions, with its code. */
  function GetAvailableStages(annotations: seq<string>): (r: map<string, int>)
    ensures forall k :: 0 <= k < |StageTable| ==> (StageTable[k].0 in r <==> StageTable[k].0 in annotations)
    ensures forall name :: name in r ==>
      exists k :: 0 <= k < |StageTable| && StageTable[k].0 == name && r[name] == StageTable[k].1
  {
    var d1 := AddIfPresent(map[], annotations, StageN1, 1);
    var d2 := AddIfPresent(d1, annotations, StageN2, 2);
    var d3 := AddIfPresent(d2, annotations, StageN3, 3);
    var d4 := AddIfPresent(d3, annotations, StageR, 4);
    StageNamesDistinct();
    forall name | name in d4
      ensures exists k :: 0 <= k < |StageTable| && StageTable[k].0 == name && d4[name] == StageTable[k].1
    {
      var k := if name == StageN1 then 0 else if name == StageN2 then 1 else if name == StageN3 then 2 else 3;
      assert StageTable[k].0 == name && d4[name] == StageTable[k].1;
    }
    d4
  }

  /** The available stages read off the table directly: every entry whose
      name occurs among the annotations, with its code. */
  function AvailableByTable(annotations: seq<string>): (r: map<string, int>)
    ensures forall k :: 0 <= k < |StageTable| && StageTable[k].0 in annotations ==>
      StageTable[k].0 in r && r[StageTable[k].0] == StageTable[k].1
    ensures forall name :: name in r ==>
      name in annotations && exists k :: 0 <= k < |StageTable| && StageTable[k].0 == name && r[name] == StageTable[k].1
  {
    StageNamesDistinct();
    map k | 0 <= k < |StageTable| && StageTable[k].0 in annotations :: StageTable[k].0 := StageTable[k].1
  }

  /** The four checks of `get_available_stages` build exactly the table's selection. */
  lemma AvailableStagesByTable(annotations: seq<string>)
    ensures GetAvailableStages(annotations) == AvailableByTable(annotations)
  {
    var r := GetAvailableStages(annotations);
    var t := AvailableByTable(annotations);
    StageNamesDistinct();
    forall name | name in r
      ensures name in t && t[name] == r[name]
    {
      var k :| 0 <= k < |StageTable| && StageTable[k].0 == name && r[name] == StageTable[k].1;
    }
    forall name | name in t
      ensures name in r
    {
      var k :| 0 <= k < |StageTable| && StageTable[k].0 == name && t[name] == StageTable[k].1;
    }
  }

  /** The available stages are stages of the table, under distinct codes 1..4. */
  lemma AvailableStagesCodes(annotations: seq<string>)
    ensures forall name :: name in GetAvailableStages(annotations) ==>
      name in [StageN1, StageN2, StageN3, StageR] && 1 <= GetAvailableStages(annotations)[name] <= 4
    ensures forall a, b :: a in GetAvailableStages(annotations) && b in GetAvailableStages(annotations) && a != b ==>
      GetAvailableStages(annotations)[a] != GetAvailableStages(annotations)[b]
  {
    var r := GetAvailableStages(annotations);
    forall a | a in r
      ensures a in [StageN1, StageN2, StageN3, StageR] && 1 <= r[a] <= 4
      ensures r[a] == 1 ==> a == StageN1
      ensures r[a] == 2 ==> a == StageN2
      ensures r[a] == 3 ==> a == StageN3
      ensures r[a] == 4 ==> a == StageR
    {
      var k :| 0 <= k < |StageTable| && StageTable[k].0 == a && r[a] == StageTable[k].1;
    }
  }

  /** More annotations never remove a stage, and a stage keeps its code. */
  lemma AvailableStagesMonotone(annotations: seq<string>, more: seq<string>)
    requires forall a :: a in annotations ==> a in more
    ensures forall name :: name in GetAvailableStages(annotations) ==>
      name in GetAvailableStages(more) && GetAvailableStages(more)[name] == GetAvailableStages(annotations)[name]
  {
    var r := GetAvailableStages(annotations);
    var q := GetAvailableStages(more);
    forall name | name in r
      ensures name in q && q[name] == r[name]
    {
      var k :| 0 <= k < |StageTable| && StageTable[k].0 == name && r[name] == StageTable[k].1;
      var j :| 0 <= j < |StageTable| && StageTable[j].0 == name && q[name] == StageTable[j].1;
      StageNamesDistinct();
    }
  }

  /** Both selections agree on codes: a stage is available exactly when it
      occurs among the annotations and is the one stage of its code. */
  lemma AvailableStagesAgreeWithOneStage(annotations: seq<string>, name: string)
    ensures name in GetAvailableStages(annotations) <==>
      name in annotations && exists n :: 1 <= n <= 4 && name in GetOneStage(Code(n))
    ensures forall n :: 1 <= n <= 4 && name in GetOneStage(Code(n)) && name in annotations ==>
      GetAvailableStages(annotations)[name] == GetOneStage(Code(n))[name]
  {
    var r := GetAvailableStages(annotations);
    if name in r {
      var k :| 0 <= k < |StageTable| && StageTable[k].0 == name && r[name] == StageTable[k].1;
      assert name in GetOneStage(Code(k + 1));
    }
    forall n | 1 <= n <= 4 && name in GetOneStage(Code(n)) && name in annotations
      ensures name in r && r[name] == GetOneStage(Code(n))[name]
    {
      assert name == StageTable[n - 1].0;
      StageNamesDistinct();
    }
  }

  /** `get_stage_epochs(mne_data, sleep_stage)` with the annotation
      descriptions and sampling frequency of `mne_data`: the event dictionary
      of the requested stages, and None when it is empty. */
  function GetStageEpochs(annotations: seq<string>, sfreq: Hertz, stage: StageArg): (r: Option<EpochRequest>)
    ensures r.None? <==>
      || (stage.All? && forall k :: 0 <= k < |StageTable| ==> StageTable[k].0 !in annotations)
      || (stage.Code? && !(1 <= stage.n <= 4))
      || stage.Other?
    ensures r.Some? ==> |r.value.eventId| >= 1
    ensures r.Some? && stage.Code? ==> r.value.eventId == map[StageTable[stage.n - 1].0 := stage.n]
    ensures r.Some? && stage.All? ==> r.value.eventId == GetAvailableStages(annotations)
    ensures r.Some? && stage.All? ==> r.value.eventId.Keys <= set k | 0 <= k < |StageTable| :: StageTable[k].0
    ensures r.Some? && stage.All? ==>
      forall k :: 0 <= k < |StageTable| ==> (StageTable[k].0 in r.value.eventId <==> StageTable[k].0 in annotations)
    ensures r.Some? ==> r.value.chunkDuration == EpochLength && r.value.tmin == 0.0
    ensures r.Some? ==> r.value.tmax < EpochLength && r.value.tmax - r.value.tmin + 1.0 / sfreq == EpochLength
  {
    var eventId := if stage.All? then GetAvailableStages(annotations) else GetOneStage(stage);
    if |eventId| > 0 then
      Some(EpochRequest(eventId, EpochLength, 0.0, EpochLength - 1.0 / sfreq))
    else
      assert stage.All? ==> forall k :: 0 <= k < |StageTable| ==> StageTable[k].0 !in annotations;
      None
  }
}

=== FILE: explore_edf.dfy ===
/**
  The annotation reader of explore_edf.py (`_read_annotations_edf`) and its
  two small helpers, `find_flat_signals` and `lights_time`.

  The reader takes the text of an EDF+ file, one character per byte, finds
  every TAL with `re.findall` (TalScanner.FindAll), and turns each match into
  one record per non-empty annotation text, all sharing the match's onset and
  duration.  The records come back as three parallel columns.
*/
module ExploreEdf {

  import opened Wrappers
  import opened Decimal
  import opened Strings
  import opened TalFormat
  import opened TalScanner

  /** The reader's result: onsets, durations and descriptions, index-aligned. */
  datatype Columns = Columns(onsets: seq<real>, durations: seq<real>, descriptions: seq<string>)

  predicate Aligned(c: Columns) {
    |c.onsets| == |c.durations| == |c.descriptions|
  }

  /** Reads aligned columns back as records. */
  function Rows(c: Columns): seq<Annotation>
    requires Aligned(c)
  {
    seq(|c.onsets|, i requires 0 <= i < |c.onsets| => Annotation(c.onsets[i], c.durations[i], c.descriptions[i]))
  }

  /** `zip(*events)`, or three empty lists when there are no events: the
      columns whose rows are exactly the events. */
  function Transpose(events: seq<Annotation>): (c: Columns)
    ensures Aligned(c)
    ensures Rows(c) == events
  {
    Columns(
      seq(|events|, i requires 0 <= i < |events| => events[i].onset),
      seq(|events|, i requires 0 <= i < |events| => events[i].duration),
      seq(|events|, i requires 0 <= i < |events| => events[i].description))
  }

  /** `ev[3].split('\x14')[1:]`: the first piece is always the empty string
      before the group's leading 0x14, and is dropped. What remains are the
      texts between consecutive 0x14 characters, the last one running to the
      end of the group. */
  function Fragments(g: Groups): (r: seq<string>)
    requires |g.texts| >= 1 && g.texts[0] == Sep
    ensures |r| >= 1
    ensures forall i :: 0 <= i < |r| ==> Sep !in r[i]
    ensures g.texts == [Sep] + Join(r, Sep)
  {
    assert g.texts == [Sep] + g.texts[1..];
    Split(g.texts, Sep)[1..]
  }

  /** `float(ev[0])`: the value of the onset the group spells. */
  function OnsetOf(g: Groups): (r: real)
    requires IsMatchOf(g)
    ensures forall n: Signed :: ValidNumeral(n.magnitude) && SignedText(n) == g.onset ==> r == SignedValue(n)
  {
    SignedFloat(g.onset)
  }

  /** `float(ev[2]) if ev[2] else 0`: the value of the duration the group
      spells, and 0 when the optional group is absent. */
  function DurationOf(g: Groups): (r: real)
    requires IsMatchOf(g)
    ensures g.durationGroup == [] ==> r == 0.0
    ensures forall n :: ValidNumeral(n) && NumeralText(n) == g.duration ==> r == NumeralValue(n)
    ensures r >= 0.0
  {
    if g.duration != [] then NumeralFloat(g.duration) else 0.0
  }

  /** The records of one match: one per non-empty fragment, in order, all
      with the match's onset and duration. */
  function Records(g: Groups): (r: seq<Annotation>)
    requires IsMatchOf(g)
    ensures |r| == |NonEmpty(Fragments(g))|
    ensures forall i :: 0 <= i < |r| ==> r[i].onset == OnsetOf(g) && r[i].duration == DurationOf(g)
    ensures forall i :: 0 <= i < |r| ==> r[i].description == NonEmpty(Fragments(g))[i]
    ensures g.durationGroup == [] ==> forall i :: 0 <= i < |r| ==> r[i].duration == 0.0
    ensures forall i :: 0 <= i < |r| ==> Described(r[i])
  {
    var ds := NonEmpty(Fragments(g));
    assert '\n' !in g.texts by {
      assert g.texts == [Sep] + g.texts[1..];
    }
    forall i | 0 <= i < |ds|
      ensures Described(Annotation(OnsetOf(g), DurationOf(g), ds[i]))
    {
      var j :| 0 <= j < |Fragments(g)| && Fragments(g)[j] == ds[i];
      assert Fragments(g)[j] == Split(g.texts, Sep)[j + 1];
    }
    Stamp(OnsetOf(g), DurationOf(g), ds)
  }

  /** What every emitted description satisfies: non-empty, and free of the
      split delimiter 0x14 and of newlines (which `.` does not match). */
  predicate Described(a: Annotation) {
    a.description != [] && Sep !in a.description && '\n' !in a.description
  }

  /** The records of a list of matches, match after match. */
  function Events(ms: seq<Groups>): (r: seq<Annotation>)
    requires forall i :: 0 <= i < |ms| ==> IsMatchOf(ms[i])
    ensures forall i :: 0 <= i < |r| ==> Described(r[i])
  {
    if ms == [] then [] else Records(ms[0]) + Events(ms[1..])
  }

  /** `_read_annotations_edf` on the already decoded text of an EDF+ file. */
  function ReadAnnotationsEdf(text: string): (r: Columns)
    ensures Aligned(r)
    ensures forall i :: 0 <= i < |r.descriptions| ==>
      r.descriptions[i] != [] && Sep !in r.descriptions[i] && '\n' !in r.descriptions[i]
    ensures FindAll(text) == [] ==> r == Columns([], [], [])
  {
    var events := Events(FindAll(text));
    var c := Transpose(events);
    assert forall i :: 0 <= i < |c.descriptions| ==> c.descriptions[i] == events[i].description;
    c
  }

  /** The records of the first match come first, then those of the rest of the text. */
  lemma ReadAnnotationsEdfOrder(g: Groups, rest: string)
    requires IsMatchOf(g)
    ensures Rows(ReadAnnotationsEdf(MatchText(g) + rest)) == Records(g) + Rows(ReadAnnotationsEdf(rest))
  {
    FindAllAfterMatch(g, rest);
    assert ([g] + FindAll(rest))[1..] == FindAll(rest);
  }

  /** Without any 0x14 0x00 in the text the reader returns three empty columns. */
  lemma ReadAnnotationsEdfWithoutTerminator(text: string)
    requires forall k :: !TerminatorAt(text, k)
    ensures ReadAnnotationsEdf(text) == Columns([], [], [])
  {
    FindAllWithoutTerminator(text);
  }

  /** Without any '+' or '-' in the text the reader returns three empty columns. */
  lemma ReadAnnotationsEdfWithoutSign(text: string)
    requires NoSign(text)
    ensures ReadAnnotationsEdf(text) == Columns([], [], [])
  {
    FindAllSkip(text, []);
    assert text + [] == text;
  }

  // ---------------------------------------------------------------------
  // The round trip: reading encoded TALs gives back what they mean.

  /** The groups `re.findall` reports for an encoded TAL. */
  function GroupsOf(t: Tal): Groups
    requires |t.texts| >= 1
  {
    Groups(
      SignedText(t.onset),
      DurationText(t.duration),
      match t.duration case None => "" case Some(n) => NumeralText(n),
      [Sep] + Join(t.texts, Sep))
  }

  /** Every character of a joined string is the separator or comes from a piece. */
  lemma {:induction false} JoinChars(parts: seq<string>, d: char, c: char)
    requires |parts| >= 1
    requires c in Join(parts, d)
    ensures c == d || exists i :: 0 <= i < |parts| && c in parts[i]
  {
    if |parts| > 1 {
      if c !in parts[0] && c != d {
        JoinChars(parts[1..], d, c);
        var i :| 0 <= i < |parts[1..]| && c in parts[1..][i];
        assert c in parts[i + 1];
      }
    }
  }

  /** The texts of a well-formed TAL, joined, form a lazy body: no newline and
      no 0x00 at all, so no early terminator. */
  lemma JoinedTextsLazy(t: Tal)
    requires WellFormed(t)
    ensures LazyBody(Join(t.texts, Sep))
  {
    var b := Join(t.texts, Sep);
    forall c | c in b
      ensures c != '\n' && c != Nul
    {
      JoinChars(t.texts, Sep, c);
    }
    forall k | 0 <= k < |b|
      ensures !TerminatorAt(b, k)
    {
      if k + 1 < |b| {
        assert b[k + 1] in b;
      }
    }
  }

  /** An encoded TAL is one match of the reader's pattern. */
  lemma EncodeIsMatch(t: Tal)
    requires WellFormed(t)
    ensures IsMatchOf(GroupsOf(t))
    ensures MatchText(GroupsOf(t)) == Encode(t)
  {
    var g := GroupsOf(t);
    ParseSignedText(t.onset);
    match t.duration {
      case None =>
      case Some(n) => ParseNumeralText(n);
    }
    JoinedTextsLazy(t);
    assert g.texts[1..] == Join(t.texts, Sep);
  }

  /** The reader's records for an encoded TAL are the records the TAL means. */
  lemma RecordsOfEncoded(t: Tal)
    requires WellFormed(t)
    ensures IsMatchOf(GroupsOf(t))
    ensures Records(GroupsOf(t)) == Expand(t)
  {
    var g := GroupsOf(t);
    EncodeIsMatch(t);
    ParseSignedText(t.onset);
    assert OnsetOf(g) == SignedValue(t.onset);
    match t.duration {
      case None =>
      case Some(n) =>
        ParseNumeralText(n);
        assert NumeralText(n) != [];
    }
    assert DurationOf(g) == DurationValue(t.duration);
    SplitJoin(t.texts, Sep);
    assert Split(g.texts, Sep) == [[]] + Split(Join(t.texts, Sep), Sep);
    assert Fragments(g) == t.texts;
  }

  /** Reading a stream of well-formed TALs, with sign-free filler before,
      between and after them, yields exactly the records the TALs mean,
      in stream order. */
  lemma {:induction false} EventsOfLayout(tals: seq<Tal>, fill: seq<string>)
    requires |fill| == |tals| + 1
    requires forall i :: 0 <= i < |tals| ==> WellFormed(tals[i])
    requires forall i :: 0 <= i < |fill| ==> NoSign(fill[i])
    ensures Events(FindAll(Layout(tals, fill))) == ExpandAll(tals)
  {
    if tals == [] {
      FindAllSkip(fill[0], []);
      assert fill[0] + [] == fill[0];
    } else {
      EventsOfLayoutStep(tals[0], fill[0], Layout(tals[1..], fill[1..]));
      EventsOfLayout(tals[1..], fill[1..]);
    }
  }

  /** Filler, then one TAL: its records come first. */
  lemma EventsOfLayoutStep(t: Tal, filler: string, rest: string)
    requires WellFormed(t) && NoSign(filler)
    ensures Events(FindAll(filler + Encode(t) + rest)) == Expand(t) + Events(FindAll(rest))
  {
    FindAllSkip(filler, Encode(t) + rest);
    assert filler + Encode(t) + rest == filler + (Encode(t) + rest);
    EncodeIsMatch(t);
    FindAllAfterMatch(GroupsOf(t), rest);
    RecordsOfEncoded(t);
    var ms := [GroupsOf(t)] + FindAll(rest);
    assert ms[1..] == FindAll(rest);
  }

  /** The round trip of the TAL format through the reader. */
  lemma ReadAnnotationsEdfRoundTrip(tals: seq<Tal>, fill: seq<string>)
    requires |fill| == |tals| + 1
    requires forall i :: 0 <= i < |tals| ==> WellFormed(tals[i])
    requires forall i :: 0 <= i < |fill| ==> NoSign(fill[i])
    ensures Rows(ReadAnnotationsEdf(Layout(tals, fill))) == ExpandAll(tals)
  {
    EventsOfLayout(tals, fill);
  }

  lemma ReadOneTalRows(t: Tal)
    requires WellFormed(t)
    ensures Rows(ReadAnnotationsEdf(Encode(t))) == Expand(t)
  {
    EncodeIsMatch(t);
    assert Encode(t) == MatchText(GroupsOf(t)) + "";
    ReadAnnotationsEdfOrder(GroupsOf(t), "");
    RecordsOfEncoded(t);
  }

  /** Two TALs with sign-free filler between them: the records of the first,
      then those of the second. */
  lemma ReadTwoTals(t1: Tal, gap: string, t2: Tal)
    requires WellFormed(t1) && WellFormed(t2)
    requires NoSign(gap)
    ensures Rows(ReadAnnotationsEdf(Encode(t1) + gap + Encode(t2))) == Expand(t1) + Expand(t2)
  {
    EncodeIsMatch(t1);
    assert Encode(t1) + gap + Encode(t2) == MatchText(GroupsOf(t1)) + (gap + Encode(t2));
    ReadAnnotationsEdfOrder(GroupsOf(t1), gap + Encode(t2));
    RecordsOfEncoded(t1);
    FindAllSkip(gap, Encode(t2));
    ReadOneTalRows(t2);
  }

  /** One TAL with N non-empty texts gives N records, all with its onset and
      its duration (0 when the duration is omitted), in text order. */
  lemma ReadOneTal(t: Tal)
    requires WellFormed(t)
    ensures var r := ReadAnnotationsEdf(Encode(t));
      && r.descriptions == NonEmpty(t.texts)
      && (forall i :: 0 <= i < |r.onsets| ==> r.onsets[i] == SignedValue(t.onset))
      && (forall i :: 0 <= i < |r.durations| ==> r.durations[i] == DurationValue(t.duration))
      && (t.duration.None? ==> forall i :: 0 <= i < |r.durations| ==> r.durations[i] == 0.0)
  {
    ReadOneTalRows(t);
    ColumnsOfStamp(ReadAnnotationsEdf(Encode(t)), SignedValue(t.onset), DurationValue(t.duration), NonEmpty(t.texts));
  }

  /** Columns whose rows all carry one onset and one duration. */
  lemma ColumnsOfStamp(c: Columns, onset: real, duration: real, texts: seq<string>)
    requires Aligned(c) && Rows(c) == Stamp(onset, duration, texts)
    ensures c.descriptions == texts
    ensures forall i :: 0 <= i < |c.onsets| ==> c.onsets[i] == onset
    ensures forall i :: 0 <= i < |c.durations| ==> c.durations[i] == duration
  {
    forall i | 0 <= i < |texts|
      ensures c.onsets[i] == onset && c.durations[i] == duration && c.descriptions[i] == texts[i]
    {
      assert Rows(c)[i] == Annotation(onset, duration, texts[i]);
    }
  }
}

=== FILE: explore_helpers.dfy ===
/**
  The two small helpers of explore_edf.py: `find_flat_signals`, which flags
  channels that hold at most two distinct sample values, and `lights_time`,
  which collects the onsets of the 'Lights Off' and 'Lights On' annotations.
*/
module ExploreHelpers {

  import opened TalFormat

  // ---------------------------------------------------------------------
  // find_flat_signals

  /** A channel is flat when `set(channel)` has fewer than 3 elements. */
  predicate Flat(channel: seq<real>) {
    |set x | x in channel| < 3
  }

  /** Three samples of the channel with pairwise different values. */
  predicate ThreeDistinct(channel: seq<real>) {
    exists i, j, k :: 0 <= i < |channel| && 0 <= j < |channel| && 0 <= k < |channel|
      && channel[i] != channel[j] && channel[j] != channel[k] && channel[i] != channel[k]
  }

  /** A channel is flat exactly when no three of its samples are pairwise distinct. */
  lemma FlatIffNoThreeDistinct(channel: seq<real>)
    ensures Flat(channel) <==> !ThreeDistinct(channel)
  {
    if ThreeDistinct(channel) {
      ThreeDistinctNotFlat(channel);
    }
    if !Flat(channel) {
      NotFlatThreeDistinct(channel);
    }
  }

  lemma ThreeDistinctNotFlat(channel: seq<real>)
    requires ThreeDistinct(channel)
    ensures !Flat(channel)
  {
    var i, j, k :| 0 <= i < |channel| && 0 <= j < |channel| && 0 <= k < |channel|
      && channel[i] != channel[j] && channel[j] != channel[k] && channel[i] != channel[k];
    var three := {channel[i], channel[j], channel[k]};
    assert |three| == 3 by {
      assert three == {channel[i]} + {channel[j]} + {channel[k]};
    }
    SubsetCardinality(three, (set x | x in channel));
  }

  lemma NotFlatThreeDistinct(channel: seq<real>)
    requires !Flat(channel)
    ensures ThreeDistinct(channel)
  {
    SampleOutside(channel, {});
    var i :| 0 <= i < |channel| && channel[i] !in {};
    SampleOutside(channel, {channel[i]});
    var j :| 0 <= j < |channel| && channel[j] !in {channel[i]};
    SampleOutside(channel, {channel[i], channel[j]});
    var k :| 0 <= k < |channel| && channel[k] !in {channel[i], channel[j]};
  }

  /** A channel with more distinct values than `few` has a sample outside it. */
  lemma SampleOutside(channel: seq<real>, few: set<real>)
    requires |few| < |set x | x in channel|
    ensures exists j :: 0 <= j < |channel| && channel[j] !in few
  {
    if forall j :: 0 <= j < |channel| ==> channel[j] in few {
      SubsetCardinality((set x | x in channel), few);
    }
  }

  lemma SubsetCardinality(a: set<real>, b: set<real>)
    requires a <= b
    ensures |a| <= |b|
  {
    assert b == a + (b - a);
  }

  /** A channel with fewer than three samples is always flat. */
  lemma ShortChannelFlat(channel: seq<real>)
    requires |channel| < 3
    ensures Flat(channel)
  {
    FlatIffNoThreeDistinct(channel);
  }

  /** `find_flat_signals(raw_data)`: the indices of the flat channels, in
      increasing order. */
  method FindFlatSignals(rawData: seq<seq<real>>) returns (duds: seq<nat>)
    ensures forall i: nat :: i in duds <==> i < |rawData| && !ThreeDistinct(rawData[i])
    ensures forall a, b :: 0 <= a < b < |duds| ==> duds[a] < duds[b]
  {
    duds := [];
    var i := 0;
    while i < |rawData|
      invariant 0 <= i <= |rawData|
      invariant forall n: nat :: n in duds <==> n < i && !ThreeDistinct(rawData[n])
      invariant forall a, b :: 0 <= a < b < |duds| ==> duds[a] < duds[b]
      invariant forall a :: 0 <= a < |duds| ==> duds[a] < i
    {
      FlatIffNoThreeDistinct(rawData[i]);
      if |set x | x in rawData[i]| < 3 {
        duds := duds + [i];
      }
      i := i + 1;
    }
  }

  // ---------------------------------------------------------------------
  // lights_time

  const LightsOff: string := "Lights Off"
  const LightsOn: string := "Lights On"

  /** The positions of the annotations whose description is exactly `d`, in order. */
  function Positions(anns: seq<Annotation>, d: string): (r: seq<nat>)
    ensures forall a, b :: 0 <= a < b < |r| ==> r[a] < r[b]
    ensures forall k :: 0 <= k < |r| ==> r[k] < |anns| && anns[r[k]].description == d
    ensures forall i :: 0 <= i < |anns| && anns[i].description == d ==> i in r
  {
    if anns == [] then []
    else
      var n := |anns| - 1;
      var prefix := Positions(anns[..n], d);
      assert forall k :: 0 <= k < |prefix| ==> anns[prefix[k]] == anns[..n][prefix[k]];
      assert forall i :: 0 <= i < n ==> anns[i] == anns[..n][i];
      if anns[n].description == d then prefix + [n] else prefix
  }

  /** The onsets of the annotations at the given positions. */
  function OnsetsAt(anns: seq<Annotation>, positions: seq<nat>): (r: seq<real>)
    requires forall k :: 0 <= k < |positions| ==> positions[k] < |anns|
    ensures |r| == |positions|
  {
    seq(|positions|, k requires 0 <= k < |positions| => anns[positions[k]].onset)
  }

  /** One more annotation adds its position at the end when its description is `d`. */
  lemma PositionsStep(anns: seq<Annotation>, i: nat, d: string)
    requires i < |anns|
    ensures Positions(anns[..i + 1], d)
      == Positions(anns[..i], d) + (if anns[i].description == d then [i] else [])
  {
    assert anns[..i + 1][..i] == anns[..i];
  }

  /** ... and its onset at the end of the selected onsets. */
  lemma OnsetsAtStep(anns: seq<Annotation>, i: nat, d: string)
    requires i < |anns|
    ensures OnsetsAt(anns[..i + 1], Positions(anns[..i + 1], d))
      == OnsetsAt(anns[..i], Positions(anns[..i], d)) + (if anns[i].description == d then [anns[i].onset] else [])
  {
    PositionsStep(anns, i, d);
    var p := Positions(anns[..i], d);
    OnsetsAtExtend(anns, i, p);
    if anns[i].description == d {
      OnsetsAtAppend(anns[..i + 1], p, i);
    }
  }

  /** Positions inside a prefix pick the same onsets from a longer prefix. */
  lemma OnsetsAtExtend(anns: seq<Annotation>, i: nat, p: seq<nat>)
    requires i < |anns|
    requires forall k :: 0 <= k < |p| ==> p[k] < i
    ensures OnsetsAt(anns[..i + 1], p) == OnsetsAt(anns[..i], p)
  {
  }

  lemma OnsetsAtAppend(anns: seq<Annotation>, p: seq<nat>, i: nat)
    requires i < |anns|
    requires forall k :: 0 <= k < |p| ==> p[k] < |anns|
    ensures OnsetsAt(anns, p + [i]) == OnsetsAt(anns, p) + [anns[i].onset]
  {
  }

  /** `lights_time(data_annotations)`: the onsets of the 'Lights Off'
      annotations and of the 'Lights On' annotations, each in input order. */
  method LightsTime(anns: seq<Annotation>) returns (off: seq<real>, on: seq<real>)
    ensures off == OnsetsAt(anns, Positions(anns, LightsOff))
    ensures on == OnsetsAt(anns, Positions(anns, LightsOn))
  {
    off, on := [], [];
    var i := 0;
    while i < |anns|
      invariant 0 <= i <= |anns|
      invariant off == OnsetsAt(anns[..i], Positions(anns[..i], LightsOff))
      invariant on == OnsetsAt(anns[..i], Positions(anns[..i], LightsOn))
    {
      OnsetsAtStep(anns, i, LightsOff);
      OnsetsAtStep(anns, i, LightsOn);
      if anns[i].description == LightsOff {
        off := off + [anns[i].onset];
      } else if anns[i].description == LightsOn {
        on := on + [anns[i].onset];
      }
      i := i + 1;
    }
    assert anns[..i] == anns;
  }

  /** Positions of two different descriptions together number at most the
      annotations: no annotation is counted twice. */
  lemma {:induction false} PositionsCount(anns: seq<Annotation>, d1: string, d2: string)
    requires d1 != d2
    ensures |Positions(anns, d1)| + |Positions(anns, d2)| <= |anns|
  {
    if anns != [] {
      PositionsCount(anns[..|anns| - 1], d1, d2);
    }
  }

  /** Neither list of `lights_time` takes an annotation the other takes, and
      together they are no longer than the input. */
  lemma {:induction false} LightsTimeDisjoint(anns: seq<Annotation>)
    ensures forall k1, k2 :: 0 <= k1 < |Positions(anns, LightsOff)| && 0 <= k2 < |Positions(anns, LightsOn)| ==>
      Positions(anns, LightsOff)[k1] != Positions(anns, LightsOn)[k2]
    ensures |OnsetsAt(anns, Positions(anns, LightsOff))| + |OnsetsAt(anns, Positions(anns, LightsOn))| <= |anns|
  {
    assert LightsOff != LightsOn by {
      assert |LightsOff| != |LightsOn|;
    }
    PositionsCount(anns, LightsOff, LightsOn);
  }
}

=== FILE: reader_examples.dfy ===
/**
  Worked inputs for the annotation reader: what `_read_annotations_edf`
  returns for a few concrete annotation streams.
*/
module ReaderExamples {

  import opened Wrappers
  import opened Decimal
  import opened Strings
  import opened TalFormat
  import opened TalScanner
  import opened ExploreEdf

  /** Aligned columns are determined by their rows. */
  lemma ColumnsFromRows(c: Columns)
    requires Aligned(c)
    ensures c == Transpose(Rows(c))
  {
    var t := Transpose(Rows(c));
    assert t.onsets == c.onsets;
    assert t.durations == c.durations;
    assert t.descriptions == c.descriptions;
  }

  /** The columns of one record and of two records, stated once so that the
      examples below need not unfold `Transpose`. */
  lemma TransposeOfOne(a: Annotation)
    ensures Transpose([a]) == Columns([a.onset], [a.duration], [a.description])
  {
  }

  lemma TransposeOfTwo(a: Annotation, b: Annotation)
    ensures Transpose([a, b]) == Columns([a.onset, b.onset], [a.duration, b.duration], [a.description, b.description])
  {
  }

  /** "+180.0" */
  const Onset180: Signed := Signed(false, Numeral("180", Some("0")))
  /** "+210.0" */
  const Onset210: Signed := Signed(false, Numeral("210", Some("0")))
  /** "+0.0" */
  const Onset0: Signed := Signed(false, Numeral("0", Some("0")))
  /** "30.0" */
  const Duration30: Numeral := Numeral("30", Some("0"))

  lemma Onset180Value()
    ensures SignedValue(Onset180) == 180.0
  {
    assert "180"[..2] == "18" && "18"[..1] == "1" && "1"[..0] == "";
  }

  lemma Onset210Value()
    ensures SignedValue(Onset210) == 210.0
  {
    assert "210"[..2] == "21" && "21"[..1] == "2" && "2"[..0] == "";
  }

  lemma Onset0Value()
    ensures SignedValue(Onset0) == 0.0
  {
    assert "0"[..0] == "";
  }

  lemma Duration30Value()
    ensures NumeralValue(Duration30) == 30.0
  {
    assert "30"[..1] == "3" && "3"[..0] == "";
  }

  /** `+180.0\x14Lights Off\x14\x00` */
  const LightsOff180: Tal := Tal(Onset180, None, ["Lights Off"])
  /** `+210.0\x1530.0\x14Sleep stage N1\x14\x00` */
  const StageN1At210: Tal := Tal(Onset210, Some(Duration30), ["Sleep stage N1"])

  lemma LightsOff180WellFormed()
    ensures WellFormed(LightsOff180)
  {
  }

  lemma LightsOff180Encoding()
    ensures WellFormed(LightsOff180)
    ensures Encode(LightsOff180) == "+180.0\U{14}Lights Off\U{14}\0"
  {
    LightsOff180WellFormed();
  }

  lemma LightsOff180Meaning()
    ensures WellFormed(LightsOff180)
    ensures Expand(LightsOff180) == [Annotation(180.0, 0.0, "Lights Off")]
  {
    LightsOff180WellFormed();
    Onset180Value();
    assert NonEmpty(LightsOff180.texts) == LightsOff180.texts;
  }

  lemma StageN1At210WellFormed()
    ensures WellFormed(StageN1At210)
  {
  }

  /** The bytes of StageN1At210, piece by piece. */
  lemma StageN1At210Encoding()
    ensures WellFormed(StageN1At210)
    ensures Encode(StageN1At210) == "+210.0" + [DurationMark] + "30.0" + [Sep] + "Sleep stage N1" + [Sep, Nul]
  {
    StageN1At210WellFormed();
    assert SignedText(Onset210) == "+210.0";
  }

  lemma StageN1At210Meaning()
    ensures WellFormed(StageN1At210)
    ensures Expand(StageN1At210) == [Annotation(210.0, 30.0, "Sleep stage N1")]
  {
    StageN1At210WellFormed();
    Onset210Value();
    Duration30Value();
    assert NonEmpty(StageN1At210.texts) == StageN1At210.texts;
  }

  /** No filler between two TALs. */
  lemma ConcatEmpty(a: string, b: string)
    ensures a + "" + b == a + b
  {
  }

  lemma TwoTalsRows()
    ensures WellFormed(LightsOff180) && WellFormed(StageN1At210)
    ensures Rows(ReadAnnotationsEdf(Encode(LightsOff180) + Encode(StageN1At210)))
      == [Annotation(180.0, 0.0, "Lights Off"), Annotation(210.0, 30.0, "Sleep stage N1")]
  {
    LightsOff180Meaning();
    StageN1At210Meaning();
    ReadTwoTals(LightsOff180, "", StageN1At210);
    ConcatEmpty(Encode(LightsOff180), Encode(StageN1At210));
  }

  /** A TAL without duration and one with a duration, back to back: two
      records, the first with duration 0. */
  lemma ExampleTwoTals()
    ensures WellFormed(LightsOff180) && WellFormed(StageN1At210)
    ensures ReadAnnotationsEdf(Encode(LightsOff180) + Encode(StageN1At210))
      == Columns([180.0, 210.0], [0.0, 30.0], ["Lights Off", "Sleep stage N1"])
  {
    TwoTalsRows();
    var a := Annotation(180.0, 0.0, "Lights Off");
    var b := Annotation(210.0, 30.0, "Sleep stage N1");
    ColumnsFromRows(ReadAnnotationsEdf(Encode(LightsOff180) + Encode(StageN1At210)));
    TransposeOfTwo(a, b);
  }

  /** `+0.0\x14Sleep stage W\x14Lights Off\x14\x00` */
  const TwoTextsAt0: Tal := Tal(Onset0, None, ["Sleep stage W", "Lights Off"])

  lemma TwoTextsAt0WellFormed()
    ensures WellFormed(TwoTextsAt0)
  {
    assert Readable("Sleep stage W");
    assert Readable("Lights Off");
  }

  /** The bytes of TwoTextsAt0, piece by piece. */
  lemma TwoTextsAt0Encoding()
    ensures WellFormed(TwoTextsAt0)
    ensures Encode(TwoTextsAt0) == "+0.0" + [Sep] + "Sleep stage W" + [Sep] + "Lights Off" + [Sep, Nul]
  {
    TwoTextsAt0WellFormed();
    assert SignedText(Onset0) + DurationText(None) == "+0.0";
    assert Join(TwoTextsAt0.texts, Sep) == "Sleep stage W" + [Sep] + "Lights Off";
  }

  lemma TwoTextsAt0Meaning()
    ensures WellFormed(TwoTextsAt0)
    ensures Expand(TwoTextsAt0) == [Annotation(0.0, 0.0, "Sleep stage W"), Annotation(0.0, 0.0, "Lights Off")]
  {
    TwoTextsAt0WellFormed();
    Onset0Value();
    NonEmptyOfNonEmpty(TwoTextsAt0.texts);
  }

  /** Two texts in one TAL: two records sharing the onset and duration. */
  lemma ExampleSharedOnset()
    ensures WellFormed(TwoTextsAt0)
    ensures ReadAnnotationsEdf(Encode(TwoTextsAt0))
      == Columns([0.0, 0.0], [0.0, 0.0], ["Sleep stage W", "Lights Off"])
  {
    TwoTextsAt0Meaning();
    var a := Annotation(0.0, 0.0, "Sleep stage W");
    var b := Annotation(0.0, 0.0, "Lights Off");
    ReadOneTalRows(TwoTextsAt0);
    ColumnsFromRows(ReadAnnotationsEdf(Encode(TwoTextsAt0)));
    TransposeOfTwo(a, b);
  }

  /** The time-keeping TAL `+0\x14\x14\x00`. */
  const TimeKeeping: Tal := Tal(Signed(false, Numeral("0", None)), None, [""])
  /** `+30\x1530\x14\x14Sleep stage W\x14\x00` */
  const StageWAt30: Tal := Tal(Signed(false, Numeral("30", None)), Some(Numeral("30", None)), ["", "Sleep stage W"])

  lemma TimeKeepingEncoding()
    ensures WellFormed(TimeKeeping)
    ensures Encode(TimeKeeping) == "+0\U{14}\U{14}\0"
    ensures Expand(TimeKeeping) == []
  {
    assert NonEmpty(TimeKeeping.texts) == [];
  }

  lemma StageWAt30WellFormed()
    ensures WellFormed(StageWAt30)
  {
    assert Readable("Sleep stage W");
  }

  /** The bytes of StageWAt30, piece by piece. */
  lemma StageWAt30Encoding()
    ensures WellFormed(StageWAt30)
    ensures Encode(StageWAt30) == "+30" + [DurationMark] + "30" + [Sep] + "" + [Sep] + "Sleep stage W" + [Sep, Nul]
  {
    StageWAt30WellFormed();
    assert SignedText(StageWAt30.onset) + DurationText(StageWAt30.duration) == "+30" + [DurationMark] + "30";
    assert Join(StageWAt30.texts, Sep) == "" + [Sep] + "Sleep stage W";
  }

  lemma StageWAt30Meaning()
    ensures WellFormed(StageWAt30)
    ensures Expand(StageWAt30) == [Annotation(30.0, 30.0, "Sleep stage W")]
  {
    StageWAt30WellFormed();
    assert "30"[..1] == "3" && "3"[..0] == "";
    assert NonEmpty(StageWAt30.texts) == ["Sleep stage W"];
  }

  /** A time-keeping TAL with an empty text, 0x00 padding, then a TAL whose
      first text is empty: empty texts give no record. */
  lemma ExampleEmptyTexts()
    ensures WellFormed(TimeKeeping) && WellFormed(StageWAt30)
    ensures ReadAnnotationsEdf(Encode(TimeKeeping) + "\0\0" + Encode(StageWAt30))
      == Columns([30.0], [30.0], ["Sleep stage W"])
  {
    TimeKeepingEncoding();
    StageWAt30Meaning();
    var a := Annotation(30.0, 30.0, "Sleep stage W");
    ReadTwoTals(TimeKeeping, "\0\0", StageWAt30);
    assert [] + [a] == [a];
    ColumnsFromRows(ReadAnnotationsEdf(Encode(TimeKeeping) + "\0\0" + Encode(StageWAt30)));
    TransposeOfOne(a);
  }

  /** Without the 0x14 0x00 terminator nothing is read, and no error is raised. */
  lemma ExampleNoTerminator()
    ensures ReadAnnotationsEdf("+0.0\U{14}Lights Off") == Columns([], [], [])
  {
    var text := "+0.0\U{14}Lights Off";
    assert Nul !in text;
    forall k
      ensures !TerminatorAt(text, k)
    {
      if 0 <= k && k + 1 < |text| {
        assert text[k + 1] in text;
      }
    }
    ReadAnnotationsEdfWithoutTerminator(text);
  }

  /** The text after 0x15 in the spaced TAL below. */
  const SpacedRest: string := " 30.0\U{14}Sleep stage N1\U{14}\0"

  /** `+210.0\x15 30.0\x14Sleep stage N1\x14\x00` */
  lemma SpacedTalBytes()
    ensures SignedText(Onset210) + [DurationMark] + SpacedRest
      == "+210.0\U{15} 30.0\U{14}Sleep stage N1\U{14}\0"
  {
  }

  /** With a space between 0x15 and the duration the pattern cannot match,
      and nothing is found. */
  lemma SpacedDurationHidden()
    ensures FindAll(SignedText(Onset210) + [DurationMark] + SpacedRest) == []
  {
    ParseSignedText(Onset210);
    SpacedRestFacts();
    FindAllDurationMarkWithoutDigit(SignedText(Onset210), SpacedRest);
    FindAllWithoutSign(SpacedRest);
  }

  lemma SpacedRestFacts()
    ensures !IsDigit(SpacedRest[0]) && NoSign(SpacedRest)
  {
  }

  lemma SpacedTalRows()
    ensures WellFormed(LightsOff180)
    ensures Rows(ReadAnnotationsEdf(Encode(LightsOff180) + (SignedText(Onset210) + [DurationMark] + SpacedRest)))
      == [Annotation(180.0, 0.0, "Lights Off")]
  {
    LightsOff180Meaning();
    var tail := SignedText(Onset210) + [DurationMark] + SpacedRest;
    EncodeIsMatch(LightsOff180);
    ReadAnnotationsEdfOrder(GroupsOf(LightsOff180), tail);
    RecordsOfEncoded(LightsOff180);
    SpacedDurationHidden();
  }

  /** A space between 0x15 and the duration (SpacedTalBytes) makes the
      pattern miss the whole second TAL: only the first record is read. */
  lemma ExampleSpaceAfterDurationMark()
    ensures WellFormed(LightsOff180)
    ensures ReadAnnotationsEdf(Encode(LightsOff180) + (SignedText(Onset210) + [DurationMark] + SpacedRest))
      == Columns([180.0], [0.0], ["Lights Off"])
  {
    SpacedTalRows();
    var a := Annotation(180.0, 0.0, "Lights Off");
    ColumnsFromRows(ReadAnnotationsEdf(Encode(LightsOff180) + (SignedText(Onset210) + [DurationMark] + SpacedRest)));
    TransposeOfOne(a);
  }

  /** A newline inside an annotation text hides its TAL from the reader. */
  lemma ExampleNewlineInText()
    ensures ReadAnnotationsEdf("+5\U{14}a\nb\U{14}\0") == Columns([], [], [])
  {
    assert "+5\U{14}a\nb\U{14}\0" == "+5" + "" + ([Sep] + "a" + ['\n'] + "b\U{14}\0");
    NewlineTextFindsNothing("+5\U{14}a\nb\U{14}\0");
  }

  lemma NewlineTextFindsNothing(s: string)
    requires s == "+5" + "" + ([Sep] + "a" + ['\n'] + "b\U{14}\0")
    ensures FindAll(s) == []
  {
    OnsetFiveText();
    assert !TerminatorAt("a", 0);
    FindAllNewlineInTexts("+5", "", "a", "b\U{14}\0");
    NewlineRestFindsNothing();
  }

  /** The same holds for a TAL that states a duration. */
  lemma ExampleNewlineInTextWithDuration()
    ensures ReadAnnotationsEdf("+5\U{15}30\U{14}a\nb\U{14}\0") == Columns([], [], [])
  {
    assert "+5\U{15}30\U{14}a\nb\U{14}\0" == "+5" + "\U{15}30" + ([Sep] + "a" + ['\n'] + "b\U{14}\0");
    NewlineWithDurationFindsNothing("+5\U{15}30\U{14}a\nb\U{14}\0");
  }

  lemma NewlineWithDurationFindsNothing(s: string)
    requires s == "+5" + "\U{15}30" + ([Sep] + "a" + ['\n'] + "b\U{14}\0")
    ensures FindAll(s) == []
  {
    OnsetFiveText();
    DurationThirtyGroup();
    assert !TerminatorAt("a", 0);
    FindAllNewlineInTexts("+5", "\U{15}30", "a", "b\U{14}\0");
    NewlineRestFindsNothing();
  }

  lemma DurationThirtyGroup()
    ensures IsDurationGroupText("\U{15}30")
  {
    ParseNumeralText(Numeral("30", None));
    assert NumeralText(Numeral("30", None)) == "30";
    assert "\U{15}30"[1..] == "30";
  }

  lemma OnsetFiveText()
    ensures IsSignedText("+5")
  {
    ParseSignedText(Signed(false, Numeral("5", None)));
    assert SignedText(Signed(false, Numeral("5", None))) == "+5";
  }

  lemma NewlineRestFindsNothing()
    ensures FindAll("b\U{14}\0") == []
  {
    assert NoSign("b\U{14}\0");
    FindAllWithoutSign("b\U{14}\0");
  }
}

=== FILE: strings.dfy ===
/**
  Python's `str.split(sep)` with an explicit one-character separator, its
  inverse `sep.join(parts)`, and the "keep only non-empty strings" filter the
  annotation reader applies to the pieces.
*/
module Strings {

  /** `s.split(d)`: the pieces between consecutive occurrences of `d`; there is
      always one more piece than there are separators, and pieces may be empty. */
  function Split(s: string, d: char): (r: seq<string>)
    ensures |r| >= 1
    ensures forall i :: 0 <= i < |r| ==> d !in r[i]
    ensures forall i, c :: 0 <= i < |r| && c in r[i] ==> c in s
    ensures Join(r, d) == s
  {
    if s == [] then [[]]
    else
      var rest := Split(s[1..], d);
      assert forall c :: c in s[1..] ==> c in s;
      if s[0] == d then
        assert Join([[]] + rest, d) == [] + [d] + Join(rest, d);
        [[]] + rest
      else
        var r := [[s[0]] + rest[0]] + rest[1..];
        JoinHead(rest, s[0], d);
        assert s == [s[0]] + s[1..];
        r
  }

  /** `d.join(parts)`: the pieces with one `d` between neighbours. */
  function Join(parts: seq<string>, d: char): string
    requires |parts| >= 1
  {
    if |parts| == 1 then parts[0] else parts[0] + [d] + Join(parts[1..], d)
  }

  /** Prepending a character to the first piece prepends it to the joined string. */
  lemma JoinHead(parts: seq<string>, c: char, d: char)
    requires |parts| >= 1
    ensures Join([[c] + parts[0]] + parts[1..], d) == [c] + Join(parts, d)
  {
    var p := [[c] + parts[0]] + parts[1..];
    assert p[1..] == parts[1..];
  }

  /** Splitting undoes joining, as long as no piece contains the separator. */
  lemma {:induction false} SplitJoin(parts: seq<string>, d: char)
    requires |parts| >= 1
    requires forall i :: 0 <= i < |parts| ==> d !in parts[i]
    ensures Split(Join(parts, d), d) == parts
    decreases |Join(parts, d)|
  {
    var s := Join(parts, d);
    if parts[0] == [] {
      if |parts| > 1 {
        assert s == [d] + Join(parts[1..], d);
        assert s[1..] == Join(parts[1..], d);
        SplitJoin(parts[1..], d);
        assert parts == [[]] + parts[1..];
      }
    } else {
      var c := parts[0][0];
      var tail := [parts[0][1..]] + parts[1..];
      assert parts[0] == [c] + parts[0][1..];
      assert parts == [[c] + tail[0]] + tail[1..];
      JoinHead(tail, c, d);
      assert s == [c] + Join(tail, d);
      assert s[1..] == Join(tail, d);
      assert c != d by { assert c in parts[0]; }
      forall i | 0 <= i < |tail|
        ensures d !in tail[i]
      {
        if i == 0 {
          assert forall x :: x in parts[0][1..] ==> x in parts[0];
        } else {
          assert tail[i] == parts[i];
        }
      }
      SplitJoin(tail, d);
    }
  }

  /** The pieces that are not the empty string, in their original order. */
  function NonEmpty(parts: seq<string>): (r: seq<string>)
    ensures |r| <= |parts|
    ensures forall i :: 0 <= i < |r| ==> r[i] != [] && r[i] in parts
    ensures forall i :: 0 <= i < |parts| && parts[i] != [] ==> parts[i] in r
    ensures multiset(r) == multiset(parts)[[] := 0]
  {
    if parts == [] then []
    else
      assert parts == [parts[0]] + parts[1..];
      if parts[0] == [] then NonEmpty(parts[1..])
      else [parts[0]] + NonEmpty(parts[1..])
  }

  /** Filtering keeps a list that has no empty piece unchanged. */
  lemma {:induction false} NonEmptyOfNonEmpty(parts: seq<string>)
    requires forall i :: 0 <= i < |parts| ==> parts[i] != []
    ensures NonEmpty(parts) == parts
  {
    if parts != [] {
      NonEmptyOfNonEmpty(parts[1..]);
    }
  }

  /** One step of the filter. */
  lemma NonEmptyHead(parts: seq<string>)
    requires parts != []
    ensures NonEmpty(parts) == (if parts[0] == [] then [] else [parts[0]]) + NonEmpty(parts[1..])
  {
  }

  /** Filtering distributes over concatenation. */
  lemma {:induction false} NonEmptyAppend(a: seq<string>, b: seq<string>)
    ensures NonEmpty(a + b) == NonEmpty(a) + NonEmpty(b)
  {
    if a != [] {
      var head: seq<string> := if a[0] == [] then [] else [a[0]];
      assert (a + b)[0] == a[0] && (a + b)[1..] == a[1..] + b;
      NonEmptyHead(a + b);
      NonEmptyHead(a);
      NonEmptyAppend(a[1..], b);
      assert head + (NonEmpty(a[1..]) + NonEmpty(b)) == (head + NonEmpty(a[1..])) + NonEmpty(b);
    } else {
      assert a + b == b;
    }
  }
}

=== FILE: tal_format.dfy ===
/**
  The Time-stamped Annotations List (TAL) format of section 2.2.2 of the EDF+
  specification (Kemp & Olivan, 2003), as a grammar over structured values:

    <onset> [ 0x15 <duration> ] 0x14 <text_1> 0x14 ... <text_n> 0x14 0x00

  with one 0x14 after every annotation text.  The onset always carries an
  explicit sign; the duration is unsigned.  An empty text (as in the
  time-keeping TAL "+0 0x14 0x14 0x00") is allowed by the format and carries
  no annotation.  Also: the annotation record the reader produces, and what
  a list of TALs means as a list of records.
*/
module TalFormat {

  import opened Wrappers
  import opened Decimal
  import opened Strings

  /** Ends every annotation text and the onset/duration part. */
  const Sep: char := '\U{14}'
  /** Separates the onset from the duration. */
  const DurationMark: char := '\U{15}'
  /** Ends a TAL (after its last 0x14) and pads unused bytes. */
  const Nul: char := '\0'

  /** One annotation: the reader's (onset, duration, description) triple. */
  datatype Annotation = Annotation(onset: real, duration: real, description: string)

  /** One TAL: a signed onset, an optional duration and its annotation texts. */
  datatype Tal = Tal(onset: Signed, duration: Option<Numeral>, texts: seq<string>)

  /** A text the reader can recover: no 0x14 (it would split the text), no 0x00
      (after a 0x14 it would end the TAL), no newline (the reader's pattern
      does not cross one) and no carriage return (reading the file in text
      mode turns it into a newline). */
  predicate Readable(a: string) {
    Sep !in a && Nul !in a && '\n' !in a && '\r' !in a
  }

  predicate WellFormed(t: Tal) {
    && ValidNumeral(t.onset.magnitude)
    && (t.duration.Some? ==> ValidNumeral(t.duration.value))
    && |t.texts| >= 1
    && forall i :: 0 <= i < |t.texts| ==> Readable(t.texts[i])
  }

  function DurationText(d: Option<Numeral>): string {
    match d
    case None => ""
    case Some(n) => [DurationMark] + NumeralText(n)
  }

  /** The bytes of one TAL. */
  function Encode(t: Tal): string
    requires WellFormed(t)
  {
    SignedText(t.onset) + DurationText(t.duration) + [Sep] + Join(t.texts, Sep) + [Sep, Nul]
  }

  /** A stream of TALs, each preceded by filler (for instance 0x00 padding or
      bytes of other signals) that holds no '+' or '-'; `fill` has one more
      entry than `tals`, the last one trailing the stream. */
  function Layout(tals: seq<Tal>, fill: seq<string>): string
    requires |fill| == |tals| + 1
    requires forall i :: 0 <= i < |tals| ==> WellFormed(tals[i])
  {
    if tals == [] then fill[0]
    else fill[0] + Encode(tals[0]) + Layout(tals[1..], fill[1..])
  }

  predicate NoSign(s: string) {
    '+' !in s && '-' !in s
  }

  /** The duration a TAL states; an omitted duration counts as 0. */
  function DurationValue(d: Option<Numeral>): real
    requires d.Some? ==> ValidNumeral(d.value)
  {
    match d
    case None => 0.0
    case Some(n) => NumeralValue(n)
  }

  /** One record per text, all sharing the given onset and duration. */
  function Stamp(onset: real, duration: real, texts: seq<string>): (r: seq<Annotation>)
    ensures |r| == |texts|
    ensures forall i :: 0 <= i < |r| ==> r[i] == Annotation(onset, duration, texts[i])
  {
    if texts == [] then [] else [Annotation(onset, duration, texts[0])] + Stamp(onset, duration, texts[1..])
  }

  /** What a TAL means: one record per non-empty annotation text. */
  function Expand(t: Tal): seq<Annotation>
    requires WellFormed(t)
  {
    Stamp(SignedValue(t.onset), DurationValue(t.duration), NonEmpty(t.texts))
  }

  function ExpandAll(tals: seq<Tal>): seq<Annotation>
    requires forall i :: 0 <= i < |tals| ==> WellFormed(tals[i])
  {
    if tals == [] then [] else Expand(tals[0]) + ExpandAll(tals[1..])
  }
}

=== FILE: tal_scanner.dfy ===
/**
  The reader's regular expression

    ([+-]\d+\.?\d*)(\x15(\d+\.?\d*))?(\x14.*?)\x14\x00

  and `re.findall` over it, as a deterministic left-to-right scanner.

  Why a scanner without backtracking is exact: the onset `[+-]\d+\.?\d*` must
  be followed by 0x15 or 0x14, neither a digit nor '.', so of all the ways the
  greedy quantifiers can give characters back only the longest numeral can be
  followed by what the pattern needs next (NumeralLengthUnique); the same
  holds for the duration.  If 0x15 follows the onset the optional group is the
  only way on, since without it the next character would have to be 0x14.  The
  lazy `.*?` stops at the first 0x14 0x00 and cannot pass a newline, since `.`
  does not match '\n' (FindTerminator).  MatchPrefix is thus the one match the
  pattern has at the start of a string (MatchPrefixSound,
  MatchPrefixComplete), and FindAll takes matches leftmost first, resuming
  after each one (FindAllLeftmost).
*/
module TalScanner {

  import opened Wrappers
  import opened Decimal
  import opened TalFormat

  /** The four groups `re.findall` returns for one match: the onset, the
      optional "0x15 duration" group, the duration alone, and the 0x14-led
      text group. Absent groups are "". */
  datatype Groups = Groups(onset: string, durationGroup: string, duration: string, texts: string)

  /** A match at the start of a string and the number of characters it spans. */
  datatype Hit = Hit(groups: Groups, length: nat)

  /** The two-character terminator 0x14 0x00 starts at position k of s. */
  predicate TerminatorAt(s: string, k: int) {
    0 <= k && k + 1 < |s| && s[k] == Sep && s[k + 1] == Nul
  }

  /** What `.*?` may span before the terminator: no newline, and (lazy) no
      earlier terminator. */
  predicate LazyBody(b: string) {
    '\n' !in b && forall k :: 0 <= k < |b| ==> !TerminatorAt(b, k)
  }

  /** The groups form a match of the pattern, and the text group is the
      shortest one the lazy quantifier allows. */
  predicate IsMatchOf(g: Groups) {
    && IsSignedText(g.onset)
    && ((g.durationGroup == [] && g.duration == [])
        || (g.durationGroup == [DurationMark] + g.duration && IsNumeralText(g.duration)))
    && |g.texts| >= 1
    && g.texts[0] == Sep
    && LazyBody(g.texts[1..])
  }

  /** The characters a match spans. */
  function MatchText(g: Groups): string {
    g.onset + g.durationGroup + g.texts + [Sep, Nul]
  }

  /** `\d+\.?\d*` taken greedily at the start of s: how many characters it spans. */
  function NumeralLength(s: string): (r: Option<nat>)
    ensures r.None? <==> (s == [] || !IsDigit(s[0]))
    ensures r.Some? ==> r.value <= |s| && IsNumeralText(s[..r.value])
  {
    var k := LeadingDigits(s);
    if k == 0 then None
    else if k < |s| && s[k] == '.' then
      var n := k + 1 + LeadingDigits(s[k + 1..]);
      var t := s[..n];
      assert t[..k] == s[..k];
      LeadingDigitsUnique(t, k);
      assert t[k + 1..] == s[k + 1..][..n - k - 1];
      Some(n)
    else
      assert s[..k][..k] == s[..k];
      LeadingDigitsUnique(s[..k], k);
      Some(k)
  }

  /** The greedy numeral is the only one that can be followed by a character
      that is neither a digit nor '.'. */
  lemma NumeralLengthUnique(s: string, m: nat)
    requires m < |s| && IsNumeralText(s[..m])
    requires !IsDigit(s[m]) && s[m] != '.'
    ensures NumeralLength(s) == Some(m)
  {
    var t := s[..m];
    var k := LeadingDigits(t);
    assert t[..k] == s[..k];
    if k < m {
      assert s[k] == t[k] == '.';
      LeadingDigitsUnique(s, k);
      var rest := s[k + 1..];
      assert rest[..m - k - 1] == t[k + 1..];
      assert rest[m - k - 1] == s[m];
      LeadingDigitsUnique(rest, m - k - 1);
    } else {
      LeadingDigitsUnique(s, k);
    }
  }

  /** Where `.*?\x14\x00` finds its terminator: the first 0x14 0x00, provided
      no newline comes before it. */
  function FindTerminator(s: string): (r: Option<nat>)
    ensures r.Some? ==> TerminatorAt(s, r.value) && LazyBody(s[..r.value])
    ensures r.None? ==> forall k :: TerminatorAt(s, k) ==> exists j :: 0 <= j < k && s[j] == '\n'
  {
    if |s| < 2 then None
    else if s[0] == '\n' then None
    else if s[0] == Sep && s[1] == Nul then Some(0)
    else
      match FindTerminator(s[1..])
      case None =>
        assert forall k :: TerminatorAt(s, k) ==> k == 0 || TerminatorAt(s[1..], k - 1);
        None
      case Some(k) =>
        var b := s[..k + 1];
        assert b == [s[0]] + s[1..][..k];
        assert forall j :: TerminatorAt(b, j) ==> j == 0 || TerminatorAt(s[1..][..k], j - 1);
        Some(k + 1)
  }

  /** A body that is lazy and followed by the terminator is what the search finds. */
  lemma {:induction false} FindTerminatorOf(b: string, rest: string)
    requires LazyBody(b)
    ensures FindTerminator(b + [Sep, Nul] + rest) == Some(|b|)
  {
    var s := b + [Sep, Nul] + rest;
    if b != [] {
      assert b[0] in b;
      assert s[1..] == b[1..] + [Sep, Nul] + rest;
      assert !TerminatorAt(b, 0);
      assert |b| == 1 ==> s[1] == Sep;
      assert |b| > 1 ==> s[1] == b[1];
      forall k | 0 <= k < |b[1..]|
        ensures !TerminatorAt(b[1..], k)
      {
        assert !TerminatorAt(b, k + 1);
      }
      assert forall c :: c in b[1..] ==> c in b;
      FindTerminatorOf(b[1..], rest);
    }
  }

  /** Group 4 and the terminator, once the onset ends at e1 and the optional
      duration group at q. */
  function TextsFrom(s: string, e1: nat, q: nat): (r: Option<Hit>)
    requires 1 <= e1 <= q <= |s|
    ensures r.Some? ==>
      && r.value.groups.onset == s[..e1]
      && r.value.groups.durationGroup == s[e1..q]
      && r.value.groups.duration == (if e1 < q then s[e1 + 1..q] else "")
      && |r.value.groups.texts| >= 1
      && r.value.groups.texts[0] == Sep
      && LazyBody(r.value.groups.texts[1..])
      && r.value.length == |MatchText(r.value.groups)| <= |s|
      && s[..r.value.length] == MatchText(r.value.groups)
  {
    if q < |s| && s[q] == Sep then
      match FindTerminator(s[q + 1..])
      case None => None
      case Some(k) =>
        var duration := if e1 < q then s[e1 + 1..q] else "";
        var g := Groups(s[..e1], s[e1..q], duration, s[q..q + 1 + k]);
        assert g.texts[1..] == s[q + 1..][..k];
        assert s[q + 1 + k..q + 3 + k] == [Sep, Nul];
        assert s[..q + 3 + k] == s[..e1] + s[e1..q] + s[q..q + 1 + k] + s[q + 1 + k..q + 3 + k];
        Some(Hit(g, q + 1 + k + 2))
    else None
  }

  /** After the onset and duration groups, a 0x14-led lazy text group and
      the terminator are what TextsFrom finds. */
  lemma TextsFromOf(s: string, e1: nat, q: nat, texts: string, rest: string)
    requires 1 <= e1 <= q <= |s|
    requires |texts| >= 1 && texts[0] == Sep && LazyBody(texts[1..])
    requires s[q..] == texts + [Sep, Nul] + rest
    ensures TextsFrom(s, e1, q)
      == Some(Hit(Groups(s[..e1], s[e1..q], if e1 < q then s[e1 + 1..q] else "", texts), q + |texts| + 2))
  {
    var b := texts[1..];
    assert s[q] == Sep;
    assert s[q + 1..] == b + [Sep, Nul] + rest;
    FindTerminatorOf(b, rest);
    TextsFromAt(s, e1, q, |b|);
    assert s[q..q + 1 + |b|] == s[q..][..1 + |b|];
    assert s[q..q + 1 + |b|] == texts;
  }

  /** TextsFrom once the terminator is found k characters after the 0x14. */
  lemma TextsFromAt(s: string, e1: nat, q: nat, k: nat)
    requires 1 <= e1 <= q < |s| && s[q] == Sep
    requires FindTerminator(s[q + 1..]) == Some(k)
    ensures TextsFrom(s, e1, q)
      == Some(Hit(Groups(s[..e1], s[e1..q], if e1 < q then s[e1 + 1..q] else "", s[q..q + 1 + k]), q + 3 + k))
  {
  }

  /** Where group 1, `[+-]\d+\.?\d*`, ends if s starts with it. */
  function OnsetEnd(s: string): (r: Option<nat>)
    ensures r.Some? ==> 1 <= r.value <= |s| && IsSignedText(s[..r.value])
    ensures r.None? <==> |s| < 2 || (s[0] != '+' && s[0] != '-') || !IsDigit(s[1])
  {
    if s == [] || (s[0] != '+' && s[0] != '-') then None
    else
      match NumeralLength(s[1..])
      case None => None
      case Some(n) =>
        assert s[..1 + n][1..] == s[1..][..n];
        Some(1 + n)
  }

  /** Where the optional group `(\x15(\d+\.?\d*))?` ends when the onset
      ends at e1; None when 0x15 follows the onset but no numeral follows it,
      for then neither choice of the optional group can lead to a match. */
  function DurationEnd(s: string, e1: nat): (r: Option<nat>)
    requires e1 <= |s|
    ensures r.Some? ==> e1 <= r.value <= |s|
    ensures r.Some? && r.value > e1 ==> s[e1] == DurationMark && IsNumeralText(s[e1 + 1..r.value])
    ensures r == Some(e1) <==> e1 == |s| || s[e1] != DurationMark
    ensures r.None? <==> e1 < |s| && s[e1] == DurationMark && (e1 + 1 == |s| || !IsDigit(s[e1 + 1]))
  {
    if e1 < |s| && s[e1] == DurationMark then
      match NumeralLength(s[e1 + 1..])
      case None => None
      case Some(d) =>
        assert s[e1 + 1..][..d] == s[e1 + 1..e1 + 1 + d];
        Some(e1 + 1 + d)
    else Some(e1)
  }

  /** The match of the pattern at the start of s, if there is one. */
  function MatchPrefix(s: string): (r: Option<Hit>)
    ensures s == [] || (s[0] != '+' && s[0] != '-') ==> r.None?
    ensures r.Some? ==> r.value.length == |MatchText(r.value.groups)| <= |s|
    ensures r.Some? ==> s[..r.value.length] == MatchText(r.value.groups)
  {
    match OnsetEnd(s)
    case None => None
    case Some(e1) =>
      match DurationEnd(s, e1)
      case None => None
      case Some(q) => TextsFrom(s, e1, q)
  }

  /** Whatever MatchPrefix returns is a match of the pattern with a lazy text
      group, spelled out by the string's first characters. */
  lemma MatchPrefixSound(s: string)
    requires MatchPrefix(s).Some?
    ensures IsMatchOf(MatchPrefix(s).value.groups)
    ensures MatchPrefix(s).value.length == |MatchText(MatchPrefix(s).value.groups)| <= |s|
    ensures s[..MatchPrefix(s).value.length] == MatchText(MatchPrefix(s).value.groups)
  {
    MatchPrefixShape(s);
  }

  lemma MatchPrefixShape(s: string)
    requires MatchPrefix(s).Some?
    ensures IsMatchOf(MatchPrefix(s).value.groups)
  {
    var e1 := OnsetEnd(s).value;
    var q := DurationEnd(s, e1).value;
    if q > e1 {
      SliceHead(s, e1, q);
    }
  }

  lemma SliceHead(s: string, i: nat, j: nat)
    requires i < j <= |s|
    ensures s[i..j] == [s[i]] + s[i + 1..j]
  {
  }

  /** A signed numeral followed by 0x15 or 0x14 is the onset group. */
  lemma OnsetEndOf(s: string, e1: nat)
    requires e1 < |s| && IsSignedText(s[..e1])
    requires s[e1] == Sep || s[e1] == DurationMark
    ensures OnsetEnd(s) == Some(e1)
  {
    assert s[1..][..e1 - 1] == s[..e1][1..];
    NumeralLengthUnique(s[1..], e1 - 1);
  }

  /** 0x15 and a numeral followed by 0x14 is the duration group; a bare 0x14
      means the group is absent. */
  lemma DurationEndOf(s: string, e1: nat, q: nat)
    requires e1 <= q < |s| && s[q] == Sep
    requires q == e1 || (s[e1] == DurationMark && IsNumeralText(s[e1 + 1..q]))
    ensures DurationEnd(s, e1) == Some(q)
  {
    if q > e1 {
      assert s[e1 + 1..][..q - e1 - 1] == s[e1 + 1..q];
      NumeralLengthUnique(s[e1 + 1..], q - e1 - 1);
    }
  }

  /** The text of the optional duration group: empty, or 0x15 and a numeral. */
  predicate IsDurationGroupText(d: string) {
    d == [] || (d[0] == DurationMark && IsNumeralText(d[1..]))
  }

  /** Where the groups sit inside the text of a match. */
  lemma MatchTextSlices(g: Groups, rest: string) returns (s: string, e1: nat, q: nat)
    requires |g.texts| >= 1
    ensures s == MatchText(g) + rest
    ensures e1 == |g.onset| && q == e1 + |g.durationGroup|
    ensures e1 <= q < |s| && s[q] == g.texts[0]
    ensures s[..e1] == g.onset && s[e1..q] == g.durationGroup
    ensures s[q..] == g.texts + [Sep, Nul] + rest
    ensures q > e1 ==> s[e1] == g.durationGroup[0] && s[e1 + 1..q] == g.durationGroup[1..]
  {
    s := MatchText(g) + rest;
    e1 := |g.onset|;
    q := e1 + |g.durationGroup|;
    assert s == g.onset + (g.durationGroup + (g.texts + [Sep, Nul] + rest));
    assert s[e1..q] == g.durationGroup;
    if q > e1 {
      assert s[e1 + 1..q] == s[e1..q][1..];
    }
  }

  /** Every lazy match of the pattern at the start of a string is the one
      MatchPrefix finds, whatever follows it. */
  lemma MatchPrefixComplete(g: Groups, rest: string)
    requires IsMatchOf(g)
    ensures MatchPrefix(MatchText(g) + rest) == Some(Hit(g, |MatchText(g)|))
  {
    var s, e1, q := MatchTextSlices(g, rest);
    MatchPrefixOfSlices(s, e1, q, g, rest);
  }

  /** MatchPrefix on a string whose slices are the groups of a match. */
  lemma MatchPrefixOfSlices(s: string, e1: nat, q: nat, g: Groups, rest: string)
    requires IsMatchOf(g)
    requires e1 <= q < |s|
    requires s[..e1] == g.onset && s[e1..q] == g.durationGroup
    requires s[q..] == g.texts + [Sep, Nul] + rest && s[q] == g.texts[0]
    requires q > e1 ==> s[e1] == g.durationGroup[0] && s[e1 + 1..q] == g.durationGroup[1..]
    ensures MatchPrefix(s) == Some(Hit(g, q + |g.texts| + 2))
  {
    GroupEndsOfSlices(s, e1, q, g);
    MatchPrefixAt(s, e1, q);
    TextsFromOf(s, e1, q, g.texts, rest);
    assert Groups(s[..e1], s[e1..q], if e1 < q then s[e1 + 1..q] else "", g.texts) == g;
  }

  /** The onset and duration groups found by MatchPrefix are those of the match. */
  lemma GroupEndsOfSlices(s: string, e1: nat, q: nat, g: Groups)
    requires IsMatchOf(g)
    requires e1 <= q < |s| && s[q] == Sep
    requires s[..e1] == g.onset && s[e1..q] == g.durationGroup
    requires q > e1 ==> s[e1] == g.durationGroup[0] && s[e1 + 1..q] == g.durationGroup[1..]
    ensures OnsetEnd(s) == Some(e1) && DurationEnd(s, e1) == Some(q)
    ensures (if e1 < q then s[e1 + 1..q] else "") == g.duration
  {
    OnsetEndOf(s, e1);
    DurationEndOf(s, e1, q);
  }

  /** MatchPrefix once the onset and the optional duration group are found. */
  lemma MatchPrefixAt(s: string, e1: nat, q: nat)
    requires OnsetEnd(s) == Some(e1) && DurationEnd(s, e1) == Some(q)
    ensures 1 <= e1 <= q <= |s|
    ensures MatchPrefix(s) == TextsFrom(s, e1, q)
  {
  }

  /** `re.findall`: matches taken leftmost first, the search resuming where
      the previous match ended. */
  function FindAll(s: string): (r: seq<Groups>)
    ensures forall i :: 0 <= i < |r| ==> IsMatchOf(r[i])
    decreases |s|
  {
    if s == [] then []
    else
      match MatchPrefix(s)
      case Some(h) =>
        MatchPrefixSound(s);
        [h.groups] + FindAll(s[h.length..])
      case None => FindAll(s[1..])
  }

  /** One step of the search: a match here, or move on by one character. */
  lemma FindAllStep(s: string)
    requires s != []
    ensures MatchPrefix(s).None? ==> FindAll(s) == FindAll(s[1..])
    ensures MatchPrefix(s).Some? ==> MatchPrefix(s).value.length <= |s|
    ensures MatchPrefix(s).Some? ==>
      FindAll(s) == [MatchPrefix(s).value.groups] + FindAll(s[MatchPrefix(s).value.length..])
  {
  }

  /** The first match is the one at the leftmost position where the pattern
      matches; the rest are found after it. */
  lemma FindAllLeftmost(s: string, p: nat) returns (h: Hit)
    requires p <= |s| && MatchPrefix(s[p..]).Some?
    requires forall j :: 0 <= j < p ==> NoMatchAt(s, j)
    ensures MatchPrefix(s[p..]) == Some(h)
    ensures h.length <= |s| - p
    ensures FindAll(s) == [h.groups] + FindAll(s[p + h.length..])
  {
    FindAllSkipTo(s, p);
    h := FindAllMatchAt(s, p);
  }

  /** Positions where the pattern does not match are passed over. */
  lemma FindAllSkipTo(s: string, p: nat)
    requires p <= |s|
    requires forall j :: 0 <= j < p ==> NoMatchAt(s, j)
    ensures FindAll(s) == FindAll(s[p..])
  {
    var j := p;
    while j > 0
      invariant 0 <= j <= p
      invariant FindAll(s[j..]) == FindAll(s[p..])
    {
      FindAllSkipOne(s, j - 1);
      j := j - 1;
    }
    assert s[0..] == s;
  }

  /** Where a match starts, the search takes it and resumes after it. */
  lemma FindAllMatchAt(s: string, p: nat) returns (h: Hit)
    requires p <= |s| && MatchPrefix(s[p..]).Some?
    ensures MatchPrefix(s[p..]) == Some(h)
    ensures h.length <= |s| - p
    ensures FindAll(s[p..]) == [h.groups] + FindAll(s[p + h.length..])
  {
    FindAllStep(s[p..]);
    h := MatchPrefix(s[p..]).value;
    assert s[p..][h.length..] == s[p + h.length..];
  }

  /** The pattern does not match at position j of s. */
  predicate NoMatchAt(s: string, j: nat)
    requires j <= |s|
  {
    MatchPrefix(s[j..]).None?
  }

  /** Where no match starts, the search moves on by one character. */
  lemma FindAllSkipOne(s: string, j: nat)
    requires j < |s| && NoMatchAt(s, j)
    ensures FindAll(s[j..]) == FindAll(s[j + 1..])
  {
    FindAllStep(s[j..]);
    assert s[j..][1..] == s[j + 1..];
  }

  /** No match anywhere means no result, and the converse. */
  lemma {:induction false} FindAllEmpty(s: string)
    ensures FindAll(s) == [] <==> forall p :: 0 <= p <= |s| ==> MatchPrefix(s[p..]).None?
    decreases |s|
  {
    if s != [] {
      assert s[0..] == s;
      FindAllStep(s);
      FindAllEmpty(s[1..]);
      forall p | 1 <= p <= |s|
        ensures s[1..][p - 1..] == s[p..]
      {
      }
    } else {
      assert MatchPrefix(s[0..]).None?;
    }
  }

  /** Filler without a sign character never starts a match and is skipped. */
  lemma {:induction false} FindAllSkip(z: string, t: string)
    requires NoSign(z)
    ensures FindAll(z + t) == FindAll(t)
  {
    if z != [] {
      assert (z + t)[0] == z[0];
      assert (z + t)[1..] == z[1..] + t;
      assert NoSign(z[1..]) by {
        assert forall c :: c in z[1..] ==> c in z;
      }
      FindAllStep(z + t);
      FindAllSkip(z[1..], t);
    } else {
      assert z + t == t;
    }
  }

  /** A match at the start contributes its groups, and the search resumes after it. */
  lemma FindAllAfterMatch(g: Groups, rest: string)
    requires IsMatchOf(g)
    ensures FindAll(MatchText(g) + rest) == [g] + FindAll(rest)
  {
    var s := MatchText(g) + rest;
    MatchPrefixComplete(g, rest);
    FindAllStep(s);
    assert s[|MatchText(g)|..] == rest;
  }

  /** A match ends with the terminator 0x14 0x00. */
  lemma MatchEndsWithTerminator(s: string, p: nat)
    requires p <= |s|
    ensures MatchPrefix(s[p..]).Some? ==> TerminatorAt(s, p + MatchPrefix(s[p..]).value.length - 2)
  {
    if MatchPrefix(s[p..]).Some? {
      var h := MatchPrefix(s[p..]).value;
      TerminatorOfPrefix(s, p, h.groups);
    }
  }

  lemma TerminatorOfPrefix(s: string, p: nat, g: Groups)
    requires p + |MatchText(g)| <= |s| && s[p..][..|MatchText(g)|] == MatchText(g)
    ensures TerminatorAt(s, p + |MatchText(g)| - 2)
  {
    var m := MatchText(g);
    assert m[|m| - 2] == Sep && m[|m| - 1] == Nul;
    assert s[p + |m| - 2] == m[|m| - 2];
    assert s[p + |m| - 1] == m[|m| - 1];
  }

  /** Text in which 0x14 is never followed by 0x00 holds no match. */
  lemma FindAllWithoutTerminator(s: string)
    requires forall k :: !TerminatorAt(s, k)
    ensures FindAll(s) == []
  {
    forall p | 0 <= p <= |s|
      ensures MatchPrefix(s[p..]).None?
    {
      MatchEndsWithTerminator(s, p);
    }
    FindAllEmpty(s);
  }

  /** An onset followed by 0x15 but not by a digit is no match at all: the
      optional duration group cannot be taken, and without it the pattern
      needs 0x14 where 0x15 stands. */
  lemma MatchPrefixDurationMarkWithoutDigit(o: string, rest: string)
    requires IsSignedText(o)
    requires rest == [] || !IsDigit(rest[0])
    ensures MatchPrefix(o + [DurationMark] + rest).None?
  {
    var s := o + [DurationMark] + rest;
    assert s[..|o|] == o;
    assert s[|o|] == DurationMark;
    OnsetEndOf(s, |o|);
    assert s[|o| + 1..] == rest;
  }

  /** A newline before the terminator hides the TAL: `.` does not match it. */
  lemma MatchPrefixNewlineInTexts(o: string, d: string, b: string, rest: string)
    requires IsSignedText(o) && IsDurationGroupText(d)
    requires forall k :: 0 <= k < |b| ==> !TerminatorAt(b, k)
    ensures MatchPrefix(o + d + ([Sep] + b + ['\n'] + rest)).None?
  {
    var s := o + d + ([Sep] + b + ['\n'] + rest);
    var e1, q := |o|, |o| + |d|;
    assert s[..e1] == o;
    assert s[e1..q] == d;
    assert s[q..] == [Sep] + b + ['\n'] + rest;
    if d != [] {
      assert s[e1] == d[0];
      assert s[e1 + 1..q] == d[1..];
    }
    OnsetEndOf(s, e1);
    DurationEndOf(s, e1, q);
    TextsFromNewline(s, e1, q, b, rest);
  }

  lemma TextsFromNewline(s: string, e1: nat, q: nat, b: string, rest: string)
    requires 1 <= e1 <= q <= |s|
    requires s[q..] == [Sep] + b + ['\n'] + rest
    requires forall k :: 0 <= k < |b| ==> !TerminatorAt(b, k)
    ensures TextsFrom(s, e1, q).None?
  {
    assert s[q + 1..] == b + ['\n'] + rest;
    FindTerminatorNewline(b, rest);
  }

  lemma {:induction false} FindTerminatorNewline(b: string, rest: string)
    requires forall k :: 0 <= k < |b| ==> !TerminatorAt(b, k)
    ensures FindTerminator(b + ['\n'] + rest).None?
  {
    var s := b + ['\n'] + rest;
    if b != [] {
      assert s[1..] == b[1..] + ['\n'] + rest;
      assert !TerminatorAt(b, 0);
      assert |b| == 1 ==> s[1] == '\n';
      assert |b| > 1 ==> s[1] == b[1];
      forall k | 0 <= k < |b[1..]|
        ensures !TerminatorAt(b[1..], k)
      {
        assert !TerminatorAt(b, k + 1);
      }
      FindTerminatorNewline(b[1..], rest);
    }
  }

  /** A numeral holds digits and at most a point. */
  lemma NumeralTextChars(s: string)
    requires IsNumeralText(s)
    ensures forall i :: 0 <= i < |s| ==> IsDigit(s[i]) || s[i] == '.'
  {
    var k := LeadingDigits(s);
    forall i | 0 <= i < |s|
      ensures IsDigit(s[i]) || s[i] == '.'
    {
      if i < k {
        assert s[..k][i] == s[i];
      } else if i > k {
        assert s[k + 1..][i - k - 1] == s[i];
      }
    }
  }

  /** ... so no sign character. */
  lemma NumeralTextNoSign(s: string)
    requires IsNumeralText(s)
    ensures NoSign(s)
  {
    NumeralTextChars(s);
  }

  lemma NoSignAppend(a: string, b: string)
    requires NoSign(a) && NoSign(b)
    ensures NoSign(a + b)
  {
    assert forall c :: c in a + b ==> c in a || c in b;
  }

  /** Text without a sign character holds no match. */
  lemma FindAllWithoutSign(z: string)
    requires NoSign(z)
    ensures FindAll(z) == []
  {
    FindAllSkip(z, []);
    assert z + [] == z;
  }

  /** No match starts at a character that is not a sign. */
  lemma NoMatchAtUnsigned(s: string, j: nat)
    requires j < |s| && s[j] != '+' && s[j] != '-'
    ensures NoMatchAt(s, j)
  {
    assert s[j..][0] == s[j];
  }

  /** Behind the sign of an onset come only digits and a point. */
  lemma OnsetTailUnsigned(s: string, o: string, j: nat)
    requires IsSignedText(o) && |o| <= |s| && s[..|o|] == o
    requires 1 <= j < |o|
    ensures s[j] != '+' && s[j] != '-'
  {
    NumeralTextNoSign(o[1..]);
    assert s[j] == o[1..][j - 1];
    assert o[1..][j - 1] in o[1..];
  }

  /** The text of a match holds no newline. */
  lemma MatchTextNoNewline(g: Groups)
    requires IsMatchOf(g)
    ensures '\n' !in MatchText(g)
  {
    NumeralTextChars(g.onset[1..]);
    assert g.onset == [g.onset[0]] + g.onset[1..];
    if g.durationGroup != [] {
      NumeralTextChars(g.duration);
    }
    assert g.texts == [Sep] + g.texts[1..];
  }

  /** A match found at position j ends with the terminator and spans no newline. */
  lemma MatchSpan(s: string, j: nat)
    requires j <= |s|
    ensures MatchPrefix(s[j..]).Some? ==>
      var n := MatchPrefix(s[j..]).value.length;
      && 2 <= n && j + n <= |s|
      && TerminatorAt(s, j + n - 2)
      && forall i :: j <= i < j + n ==> s[i] != '\n'
  {
    MatchEndsWithTerminator(s, j);
    if MatchPrefix(s[j..]).Some? {
      MatchPrefixSound(s[j..]);
      var h := MatchPrefix(s[j..]).value;
      MatchTextNoNewline(h.groups);
      forall i | j <= i < j + h.length
        ensures s[i] != '\n'
      {
        assert s[i] == MatchText(h.groups)[i - j];
      }
    }
  }

  /** No match starts at j when a newline at n comes before any terminator. */
  lemma NoMatchBeforeNewline(s: string, j: nat, n: nat)
    requires j < n < |s| && s[n] == '\n'
    requires forall t :: j <= t && t + 1 < n ==> !TerminatorAt(s, t)
    ensures NoMatchAt(s, j)
  {
    MatchSpan(s, j);
  }

  /** An onset followed by 0x15 and no digit starts no match: the search
      passes over it, up to and including the 0x15, and resumes there. */
  lemma FindAllDurationMarkWithoutDigit(o: string, rest: string)
    requires IsSignedText(o)
    requires rest == [] || !IsDigit(rest[0])
    ensures FindAll(o + [DurationMark] + rest) == FindAll(rest)
  {
    var s := o + [DurationMark] + rest;
    MatchPrefixDurationMarkWithoutDigit(o, rest);
    assert s[..|o|] == o;
    forall j | 0 <= j <= |o|
      ensures NoMatchAt(s, j)
    {
      if j == 0 {
        assert s[0..] == s;
      } else {
        if j < |o| {
          OnsetTailUnsigned(s, o, j);
        }
        NoMatchAtUnsigned(s, j);
      }
    }
    FindAllSkipTo(s, |o| + 1);
    assert s[|o| + 1..] == rest;
  }

  /** A TAL, with or without a duration, that has a newline before its
      terminator starts no match, and neither does anything between its
      onset and the newline: the search resumes after the newline. */
  lemma FindAllNewlineInTexts(o: string, d: string, b: string, rest: string)
    requires IsSignedText(o) && IsDurationGroupText(d)
    requires forall k :: 0 <= k < |b| ==> !TerminatorAt(b, k)
    ensures FindAll(o + d + ([Sep] + b + ['\n'] + rest)) == FindAll(rest)
  {
    var pre := o + d + [Sep] + b + ['\n'];
    var s := o + d + ([Sep] + b + ['\n'] + rest);
    assert s == pre + rest;
    forall j | 0 <= j < |pre|
      ensures NoMatchAt(s, j)
    {
      NoMatchInNewlineTal(s, o, d, b, rest, j);
    }
    FindAllSkipPrefix(s, pre, rest);
  }

  /** A prefix at none of whose positions a match starts contributes nothing. */
  lemma FindAllSkipPrefix(s: string, pre: string, rest: string)
    requires s == pre + rest
    requires forall j :: 0 <= j < |pre| ==> NoMatchAt(s, j)
    ensures FindAll(s) == FindAll(rest)
  {
    FindAllSkipTo(s, |pre|);
    assert s[|pre|..] == rest;
  }

  /** No match starts anywhere from the onset up to the newline. */
  lemma NoMatchInNewlineTal(s: string, o: string, d: string, b: string, rest: string, j: nat)
    requires IsSignedText(o) && IsDurationGroupText(d)
    requires forall k :: 0 <= k < |b| ==> !TerminatorAt(b, k)
    requires s == o + d + ([Sep] + b + ['\n'] + rest)
    requires j <= |o| + |d| + 1 + |b|
    ensures NoMatchAt(s, j)
  {
    var q := |o| + |d|;
    var n := q + 1 + |b|;
    assert s[..|o|] == o;
    assert s[q] == Sep && s[n] == '\n';
    if j == 0 {
      MatchPrefixNewlineInTexts(o, d, b, rest);
      assert s[0..] == s;
    } else if j < |o| {
      OnsetTailUnsigned(s, o, j);
      NoMatchAtUnsigned(s, j);
    } else if j < q {
      assert s[|o|..q] == d;
      DurationGroupUnsigned(s, |o|, d, j);
      NoMatchAtUnsigned(s, j);
    } else if j == q || j == n {
      NoMatchAtUnsigned(s, j);
    } else {
      TerminatorsInBody(s, o + d, b, rest);
      NoMatchBeforeNewline(s, j, n);
    }
  }

  /** Inside the duration group there is no sign character. */
  lemma DurationGroupUnsigned(s: string, p: nat, d: string, j: nat)
    requires IsDurationGroupText(d)
    requires p + |d| <= |s| && s[p..p + |d|] == d
    requires p <= j < p + |d|
    ensures s[j] != '+' && s[j] != '-'
  {
    assert s[j] == d[j - p];
    if j > p {
      NumeralTextNoSign(d[1..]);
      assert d[j - p] == d[1..][j - p - 1];
      assert d[1..][j - p - 1] in d[1..];
    }
  }

  /** Between the 0x14 that opens the texts and the newline, there is no terminator. */
  lemma TerminatorsInBody(s: string, h: string, b: string, rest: string)
    requires s == h + ([Sep] + b + ['\n'] + rest)
    requires forall k :: 0 <= k < |b| ==> !TerminatorAt(b, k)
    ensures forall t :: |h| < t && t + 1 < |h| + 1 + |b| ==> !TerminatorAt(s, t)
  {
    forall t | |h| < t && t + 1 < |h| + 1 + |b|
      ensures !TerminatorAt(s, t)
    {
      assert !TerminatorAt(b, t - |h| - 1);
      assert s[t] == b[t - |h| - 1] && s[t + 1] == b[t - |h|];
    }
  }
}

=== FILE: wrappers.dfy ===
/** The optional-value datatype used for "the pattern did not match here". */
module Wrappers {

  datatype Option<+T> = None | Some(value: T)

}
